=== FILE: README.md ===
# claude-cli: a Dafny model of the client core and the command decisions

`claude-cli` is a command-line client for the Claude web application. Its
`EnhancedClient` (claude_cli/utils/client.py) posts a prompt to the
`append_message` endpoint and turns whatever comes back into one answer
string: an event stream of `data:` lines, a flat document, or damaged data.
Beside it sit three command modules. They talk to the service through the
external `claude_api.Client`, not through `EnhancedClient`. `chat` runs an interactive
session, `manage` lists, deletes and shows conversations, and `query` sends a
one-off prompt.

This project models, in Dafny:

- **The completion extractor** (`send_message`, client.py:148-183). The body
  is split on newlines. Each stripped `data:` line is parsed as JSON, and
  its `completion` is collected in line order. A line that fails to parse is
  probed with the expression `"completion"\s*:\s*"([^"]*)"`. When all of that
  yields nothing, every match across the whole body is joined. When that is
  empty too, a fixed header is returned with at most 500 characters of the
  body. The expression never needs to backtrack (no alternative choice can
  succeed where the greedy one fails), so it is modelled by a
  deterministic scanner (`CompletionPattern`), proved sound and complete for
  well-formed fields.
- **The request `send_message` builds.** This covers the attachment step and
  its short-circuit on a failed upload, the extension-to-type table, the
  inline `.txt` branch, and the mapping of a transport exception or an
  escaping `TypeError` to the `Error communicating with Claude: ` reply.
- **The status rules** of `EnhancedClient`'s listing, history, delete and rename, and the
  re-slicing of a generated UUID.
- **`start_chat`.** The modelled parts are choosing the conversation, classifying each
  typed line, what a whole session sends, and the preview of the last six
  messages.
- **`list_conversations`, `delete_conversation` and
  `view_conversation_history`.** The modelled parts are the rows and their stable
  newest-first order, the `y` confirmation gate, and the separator layout.
- **`send_query`.** The modelled parts are the create-or-verify gate and the forwarding
  of the attachment and response.

HTTP, the `claude_api` library the commands call, the console and
`json.loads` are not modelled. Each of them is a parameter: a function from
what the program sends to what it receives. The only exception that matters
to the extractor is one value of the parse parameter: `TypeError`, which the
membership test, the indexing or the final join raises on a payload that is
not an object (a number, `true`, `false`, `null`, or a string or list that contains `completion`) or
whose `completion` is not a string. A record without `completion`, and a
string or list in which `completion` is not found, raise nothing and add
nothing.

Four points of the code that the model follows as written:

- `send_message` posts once, to one endpoint, with model `claude-2`. There is
  no loop over endpoint, model and payload variants.
- Only the `completion` field is read. `text`, `content` and `delta.text`
  are never consulted.
- A `data:` line that fails to parse is not skipped: the expression is tried
  on it. The whole body is never parsed as one JSON document. A body without
  data lines goes straight to the whole-body salvage and then to the
  diagnostic.
- In `query`, the existence check of an explicit id blocks. A listing that
  raises, or an id that is not listed, exits with status 1 before anything
  is sent.

Files: `wrappers.dfy` (Option), `text.dfy` (Python string primitives),
`pattern.dfy` (the completion expression), `extractor.dfy`,
`conversations.dfy` (the records the commands read), `client.dfy`,
`chat.dfy`, `manage.dfy`, `query.dfy`.

## Model

| member | source | states |
|---|---|---|
| Text.StripPadded | claude_cli/utils/client.py:155 | `strip()` removes exactly the surrounding whitespace: a trimmed text padded with whitespace on both sides strips back to itself |
| Text.StripIdempotent | claude_cli/utils/client.py:160 | stripping a stripped line changes nothing |
| Text.SplitLines | claude_cli/utils/client.py:154 | `split('\n')` gives at least one piece, and no piece contains a newline |
| Text.JoinSplit | claude_cli/utils/client.py:154 | joining the pieces of a split with newlines gives the body back |
| Text.SplitJoin | claude_cli/utils/client.py:154 | splitting newline-free lines joined by newlines gives the lines back |
| Text.Abbreviate | claude_cli/utils/client.py:181 | the whole text when it fits; otherwise exactly the first `limit` characters followed by `...` |
| Text.DecimalRoundTrip | claude_cli/commands/manage.py:47 | `str(n)` for a count is a digit string that reads back as n |
| Text.DecimalInjective | claude_cli/commands/manage.py:47 | different counts print differently |
| CompletionPattern.MatchAt | claude_cli/utils/client.py:166 | a match ends past its start, inside the text, and its captured value has no quote in it |
| CompletionPattern.MatchAtSound | claude_cli/utils/client.py:166 | soundness: a match covers exactly the key, whitespace, a colon, whitespace and the quoted value |
| CompletionPattern.FieldMatchesAt | claude_cli/utils/client.py:166 | completeness: a well-formed field is matched at its start and captures exactly its value, whatever precedes or follows it |
| CompletionPattern.FindAllFrom | claude_cli/utils/client.py:175 | no captured value contains a quote |
| CompletionPattern.FindAllStep | claude_cli/utils/client.py:175 | `findall` lists every well-formed field it reaches: when nothing matches before a field (no key, or only keys not followed by a quoted string), the scan lists that field's value first and resumes right after it, so successive fields are listed one by one, in order |
| CompletionPattern.NothingMatchesBetween | claude_cli/utils/client.py:175 | positions where nothing matches add nothing: when nothing matches in `[i, j)`, `findall` from `i` lists exactly what it lists from `j` |
| CompletionPattern.SearchIsFirstFound | claude_cli/utils/client.py:166-176 | `re.search` finds something exactly when `re.findall` does, and what it finds is the first item `findall` lists |
| CompletionPattern.NoKeyNoMatch | claude_cli/utils/client.py:175 | text without `"completion"` holds no match |
| CompletionPattern.SearchField | claude_cli/utils/client.py:166 | on a line that starts with a well-formed field, the search captures that field's value |
| CompletionPattern.SearchFieldAt | claude_cli/utils/client.py:166 | when the first match in a string is a well-formed field, the search captures that field's value, whatever precedes it, keys without a quoted value included |
| CompletionPattern.SearchFieldInDataLine | claude_cli/utils/client.py:156-167 | on a stripped stream line `data:` + text in which nothing matches + a well-formed field + anything, the fallback search captures that field's value |
| Extractor.LinePassFaults | claude_cli/utils/client.py:154-168 | the per-line loop raises exactly when some data line's payload is unsupported |
| Extractor.ExtractAnswer | claude_cli/utils/client.py:148-183 | the extraction raises exactly when some data line's payload is unsupported; an empty body gives the empty answer, and a non-empty body never does |
| Extractor.LinePassAppend | claude_cli/utils/client.py:154-170 | the loop over two blocks of lines is the loop over the first block followed by the loop over the second |
| Extractor.OnlyDataLinesCount | claude_cli/utils/client.py:155-157 | lines that do not start with `data:` once stripped contribute nothing: dropping them leaves the result unchanged |
| Extractor.CompletionsInOrder | claude_cli/utils/client.py:159-170 | data lines that all parse to records yield their completions joined in line order, a record without a completion adding nothing |
| Extractor.MalformedLineTolerated | claude_cli/utils/client.py:164-168 | a line that fails to parse never stops the loop: it adds the first completion the expression finds in it, or nothing, and the lines around it still contribute |
| Extractor.EventLine | claude_cli/utils/client.py:155-160 | a line written as `data: ` and a trimmed payload is a data line whose payload is that JSON text |
| Extractor.EventLinesParse | claude_cli/utils/client.py:154-163 | every line of a generated event stream is a newline-free data line whose payload parses to its record |
| Extractor.StreamAnswer | claude_cli/utils/client.py:150-183 | for an event stream whose records carry completions that join to a non-empty text, the answer is that text |
| Extractor.SalvagedWhenPassEmpty | claude_cli/utils/client.py:173-176 | whenever the per-line pass collects nothing, the whole-body salvage answers if it finds text |
| Extractor.SingleField | claude_cli/utils/client.py:175 | in a text with one well-formed field and no other key, `findall` lists exactly that field's value |
| Extractor.FlatDocumentSalvaged | claude_cli/utils/client.py:172-176 | a flat JSON document holding one `"completion": "..."` field is answered with its value |
| Extractor.UnparseableDiagnosed | claude_cli/utils/client.py:178-181 | whenever a non-empty body's per-line pass and salvage both find nothing, the answer is the fixed header and the body, cut to 500 characters plus `...` when longer |
| Extractor.KeylessTextDiagnosed | claude_cli/utils/client.py:172-181 | a non-empty body with no data line and no `"completion"` key anywhere is answered by the diagnostic |
| Conversations.Uuids | claude_cli/commands/chat.py:33 | the id list exists exactly when every entry has a `uuid`; it then lists those ids, one per entry, in order |
| Conversations.Lookup | claude_cli/commands/chat.py:33-34 | the membership test fails exactly when some entry lacks a `uuid`; otherwise it holds exactly when some entry has the id |
| Client.BaseName | claude_cli/utils/client.py:295 | the file name is the longest suffix of the path without a `/`: the whole path when it has no `/`, otherwise exactly what follows its last `/` |
| Client.Extension | claude_cli/utils/client.py:62 | the extension is empty, or a suffix of the path starting at its only dot and containing no `/` |
| Client.ExtensionOf | claude_cli/utils/client.py:62 | `dir/stem.suffix` has extension `.suffix` whenever the stem is not all dots |
| Client.DotStemHasNoExtension | claude_cli/utils/client.py:62 | `dir/stem.suffix` with a stem of dots only (`.pdf`, `...txt`) has no extension, so its content type is the octet-stream default |
| Client.ContentType | claude_cli/utils/client.py:60-71 | pdf, plain-text and csv types correspond exactly to the lower-cased extensions `.pdf`, `.txt` and `.csv`; everything else is generic binary |
| Client.UploadAttachment | claude_cli/utils/client.py:292-349 | a path ending in `.txt` is inlined with its name, `text/plain`, its size and its content; any other path gives an attachment exactly when the conversion reply is 200 with a truthy body, and then carries that body |
| Client.TextSuffixIsCaseSensitive | claude_cli/utils/client.py:294 | `notes.txt` is inlined, but `notes.TXT` is uploaded for conversion as `text/plain` |
| Client.SendMessage | claude_cli/utils/client.py:102-186 | no request is posted exactly when an attachment is given and its upload fails, and then the reply is the invalid-file message; a posted request carries the prompt twice, the conversation, the organization, model `claude-2`, time zone `UTC`, and as its attachments exactly the upload's result when an attachment was given and none otherwise; a transport exception becomes the error reply |
| Client.DeliveredReply | claude_cli/utils/client.py:148-186 | a delivered body yields the extracted answer, an extraction that raises `TypeError` yields `Error communicating with Claude: ` and the error text, and the reply is empty exactly when the body is |
| Client.TextAttachmentPosted | claude_cli/utils/client.py:107-111 | a `.txt` attachment never short-circuits: the request is posted with its inline descriptor |
| Client.DeleteAndRenameDisagree | claude_cli/utils/client.py:211-214 | delete succeeds on 204 only and rename on 200 only, so no reply makes both succeed |
| Client.ListAllConversations | claude_cli/utils/client.py:92-100 | the parsed list on 200; the empty list on any other status or an undecodable body |
| Client.ListingErrorsLookEmpty | claude_cli/utils/client.py:95-100 | an error status or an undecodable body gives the same result as an account without conversations |
| Client.ChatConversationHistory | claude_cli/utils/client.py:235-241 | a history exactly when the status is 200 and the body decodes; otherwise an error object, the parse error on 200 |
| Client.HistoryErrorNamesStatus | claude_cli/utils/client.py:241 | the error for a failed status ends with digits that read back as that status |
| Client.GenerateUuid | claude_cli/utils/client.py:243-248 | for an input of at least 24 characters, the result has the same length and dashes at 8, 13, 18 and 23 |
| Client.GenerateUuidKeepsDashed | claude_cli/utils/client.py:247 | a string that already has its dashes in place is returned unchanged |
| Client.GenerateUuidIdempotent | claude_cli/utils/client.py:247 | re-slicing twice is re-slicing once |
| Client.GeneratedUuidCanonical | claude_cli/utils/client.py:245-248 | the string of a random UUID comes back unchanged, in canonical 8-4-4-4-12 lower-case hexadecimal form |
| Chat.SelectConversation | claude_cli/commands/chat.py:15-37 | `new_chat` always creates; with no truthy id, the configured default is used when present and a new conversation otherwise; an explicit id continues exactly when it is listed, is not found when the listing is whole but lacks it, and escapes otherwise |
| Chat.NewChatIgnoresId | claude_cli/commands/chat.py:25-29 | with `new_chat` the id, the configuration and the listing do not matter |
| Chat.EmptyIdIsAbsent | claude_cli/commands/chat.py:15 | an empty id behaves as no id |
| Chat.ExplicitIdIsKept | claude_cli/commands/chat.py:30-37 | an explicit id is never replaced by the default or a new conversation |
| Chat.Classify | claude_cli/commands/chat.py:63-93 | `exit`, `help` and `clear` are recognised in any case; a line starting `attach ` in any case attaches the stripped rest in its own case; any other line is sent verbatim |
| Chat.ClassifyIgnoresCase | claude_cli/commands/chat.py:63-71 | lines equal up to letter case ask for the same built-in command |
| Chat.ClassifyRender | claude_cli/commands/chat.py:63-93 | typing a command and classifying the line gives the command back |
| Chat.AttachAnyCase | claude_cli/commands/chat.py:71-73 | `attach` in any case, followed by anything, attaches the stripped remainder |
| Chat.Session | claude_cli/commands/chat.py:58-101 | a session sends at most one message per typed line, every message sent is a typed line, every attached path exists, and a session that stops by `exit` saw an `exit` line |
| Chat.ExitEndsSession | claude_cli/commands/chat.py:63-64 | `exit` ends the session before anything is sent |
| Chat.QuietCommandsSendNothing | claude_cli/commands/chat.py:65-70 | `help` and `clear` leave the rest of the session unchanged |
| Chat.AttachConsumesNextLine | claude_cli/commands/chat.py:71-88 | `attach` with a missing path is skipped; with an existing path it sends the next line verbatim with the attachment, even if that line is `exit` |
| Chat.PlainMessagesSentInOrder | claude_cli/commands/chat.py:90-97 | a session of plain messages sends each once, in order, without attachments |
| Chat.Last | claude_cli/commands/chat.py:48 | `[-n:]` keeps the last n elements, or all when there are fewer |
| Chat.PreviewLines | claude_cli/commands/chat.py:48-55 | the preview shows the leading readable messages, each as role and abbreviated text, and stops at the first message it cannot read |
| Chat.HistoryPreview | claude_cli/commands/chat.py:43-55 | a preview appears exactly for a history with a non-empty message list; it covers at most the last six messages and is complete exactly when every one of them could be shown |
| Chat.PreviewOfReadableHistory | claude_cli/commands/chat.py:45-52 | a readable history previews min(n, 6) lines ending with its latest message, each at most 103 characters long |
| Manage.LexLeTotal | claude_cli/commands/manage.py:28 | any two keys are comparable |
| Manage.LexLeTransitive | claude_cli/commands/manage.py:28 | the key order is transitive |
| Manage.LexLeAntisymmetric | claude_cli/commands/manage.py:28 | keys ordered both ways are equal |
| Manage.Insert | claude_cli/commands/manage.py:28 | inserting keeps the multiset of entries plus the new one, and keeps a descending sequence descending |
| Manage.SortNewestFirst | claude_cli/commands/manage.py:28 | the sorted rows are a permutation of the listing in descending `created_at` order, a missing key counting as `''` |
| Manage.DescendingOrdersAll | claude_cli/commands/manage.py:28 | in the sorted rows no later key is above an earlier one |
| Manage.InsertWithKey | claude_cli/commands/manage.py:28 | inserting puts an entry before every other entry with the same key |
| Manage.SortIsStable | claude_cli/commands/manage.py:28 | for every key, the entries with that key keep their listing order |
| Manage.RowOf | claude_cli/commands/manage.py:29-47 | the id is the `uuid` or `Unknown`; the name is the truthy name or `Untitled`; the date is the formatted timestamp, the raw one when formatting fails, or `Unknown` when there is none; the count is a digit string whose value is the number of messages, 0 when the field is missing |
| Manage.ListConversations | claude_cli/commands/manage.py:15-52 | the notice exactly for an empty listing, an error exactly when the listing raised, otherwise one row per conversation in the sorted order |
| Manage.TableNewestFirst | claude_cli/commands/manage.py:28-47 | table rows come from a permutation of the listing, and a row above another never has an older key |
| Manage.ConfirmedExactly | claude_cli/commands/manage.py:61-62 | the reply confirms exactly when it is `y` or `Y` |
| Manage.DeleteCommand | claude_cli/commands/manage.py:59-73 | nothing is deleted without confirmation; after it, the outcome follows the delete call: deleted, not deleted, or exit status 1 when it raised |
| Manage.ReadableCount | claude_cli/commands/manage.py:105-107 | the view reaches exactly the messages before the first one it cannot read |
| Manage.ViewHistory | claude_cli/commands/manage.py:95-117 | the error exactly when the call raised, the notice exactly for a missing or empty message list; otherwise the title is the truthy name or `Untitled`, and the view fails exactly when some message cannot be read |
| Manage.LaterItems | claude_cli/commands/manage.py:105-113 | after the first message, each message prints a separator, its role and its text |
| Manage.FirstItems | claude_cli/commands/manage.py:105-113 | n readable messages print 3n - 1 items, a separator between consecutive messages and nowhere else, each heading naming its message's role |
| Manage.SeparatorsBetween | claude_cli/commands/manage.py:103-117 | when the first n messages of a history can be read (n > 0), the view prints 3n - 1 items with a separator between consecutive messages and nowhere else, each heading naming its message's role, and fails exactly when an unreadable message follows them |
| Query.Verify | claude_cli/commands/query.py:18-27 | the check fails exactly when the listing raises or an entry lacks a `uuid`; otherwise it passes exactly when the id is listed |
| Query.SendQuery | claude_cli/commands/query.py:12-41 | without a truthy id the created conversation is used, and a failed creation escapes; with one, the prompt is sent exactly when the check passes, and otherwise the command exits with status 1; the attachment is forwarded exactly when truthy; the response is returned unchanged, and a failed send exits with status 1 |
| Query.UnknownIdNeverSends | claude_cli/commands/query.py:20-24 | an id that is not listed is never sent to |
| Query.EmptyAttachmentDropped | claude_cli/commands/query.py:32-36 | an empty attachment is no attachment |
| Query.SameGateAsChat | claude_cli/commands/query.py:18-27 | the query sends to an explicit id exactly when the interactive chat would continue with it; where the chat does not continue, the query exits with status 1 |

## Left out

- HTTP and the `curl_cffi`/`requests` transport, headers, proxies and timeouts (client.py:382-395). A reply is a parameter.
- UTF-8 decoding with `errors="ignore"` (client.py:150). The body is given already decoded.
- `json.loads` and `json.dumps`. Parsing is a parameter; the request is a record, not JSON text.
- The text of a `TypeError`. It is a parameter of `SendMessage`.
- `EnhancedClient`'s `get_organization_id`, `create_new_chat`, `reset_all` and `_make_request`. Nothing the modelled operations decide depends on them. Their own decisions are not modelled:
  - `get_organization_id` raises on a status other than 200, on an empty or unparsable list, and otherwise returns the first organization's `uuid` (client.py:48-58).
  - `create_new_chat` returns the parsed reply on status 200. When that reply is not JSON it returns the locally generated UUID with an error, and on any other status an error object (client.py:274-280).
  - `reset_all` deletes every listed conversation without looking at the results, and returns `True` (client.py:282-290).
  - `_make_request` raises `ValueError` for a method other than `GET`, `POST` and `DELETE` (client.py:382-395).
- The external `claude_api.Client` that the commands call (its `create_new_chat`, `list_all_conversations`, `chat_conversation_history`, `send_message`, `delete_conversation` and `rename_chat`). Its results are parameters of the command models (`created`, `listing`, `send`, the delete outcome). `EnhancedClient`'s rules in `Client` are not what the commands call.
- `rename_conversation` in manage.py. It only prints the result of the external client's `rename_chat` (manage.py:81), which is not modelled.
- Reading the attached file and the UTF-8/latin-1 fallback (client.py:296-304). The size and content are a parameter.
- The exceptions those reads, `response.json()` and the conversion upload's `req.post` (client.py:345, outside the `try` at client.py:148) raise, which escape `send_message`. They are not modelled: the `convert` parameter always returns a conversion result.
- `uuid.uuid4()` randomness. `GeneratedUuidCanonical` takes the 32 hexadecimal digits as input.
- `datetime.fromisoformat` and `strftime` (manage.py:37-38). They are a `format` parameter.
- The console and its markup: printing, `Markdown`, the rule of 50 box-drawing characters (one `Separator` item), `show_help` and clearing the screen.
- cli.py, config.py and setup.py: argument parsing, the configuration file and packaging.
- The wiring in cli.py passes `proxy` and `debug` keyword arguments (cli.py:37, 57, 78, 95, 113) that none of the command functions accepts. As wired, every command therefore ends in a `TypeError` (exit status 1) before any modelled decision. The command models start at the command functions themselves.
- Keyboard interrupt and end of input in the chat loop are one ending, `InputEnded`. Exit status 0 after Ctrl+C and the escaping `EOFError` are not told apart.
- FindAllFrom: its own contract states only that captured values are quote-free. Which values it lists is stated by `FindAllStep`, `NoKeyNoMatch` and `SearchIsFirstFound`.
- Text.Lower: lower-cases ASCII letters only. Two other code points lower to an ASCII letter: U+0130 lowers to `i` plus a combining dot, and U+212A KELVIN SIGN lowers to `k`. Neither can produce `exit`, `help`, `clear`, `attach `, `y`, `.pdf`, `.txt` or `.csv`: the first adds a character, and none of these words has a `k`.
- Client.Extension: models `os.path.splitext` with `/` as the only separator (POSIX), not Windows paths.
- JSON `null` for a field is modelled as the field being absent (except a record's `completion`: a null completion is appended and the join at client.py:170 raises `TypeError`, so that payload is `Unsupported`). Where the program treats the two differently:
  - `uuid` in the table: the program passes `None` to the table (manage.py:29, 47), which shows an empty cell, where the model shows `Unknown`.
  - `created_at` in the table: with at least two entries the program's sort raises `TypeError` (manage.py:28) and the command exits with status 1 (manage.py:50-52); the model sorts the entry as `''`.
  - `chat_messages` in the table: `len(None)` raises (manage.py:45) and the command exits with status 1; the model counts 0.
  - `uuid` in the id check of chat and query (chat.py:33, query.py:21): the program collects `None` without raising; the model takes the path of a check that raised.
  - `sender` of a message (chat.py:49, manage.py:106): the program shows `Claude`; the model treats the message as unreadable.
  - `text` of a message in the history view (manage.py:107, 113): the program prints `None` and goes on; the model treats the message as unreadable, so the view stops there and exits with status 1.

=== FILE: chat.dfy ===
/**
 The decision procedures of `start_chat` (claude_cli/commands/chat.py): which
 conversation a session continues, how one line typed at the prompt is
 classified, what a whole session sends, and the preview of earlier
 messages. The `claude_api` client and the console are parameters: what
 `create_new_chat` and the listing return, whether a path exists, and the
 lines the user types.
 */
module Chat {
  import opened Wrappers
  import opened Text
  import opened Conversations

  // ---------------------------------------------------------------------
  // Choosing the conversation.

  /** Where the conversation of a session comes from. */
  datatype Origin = FromDefault | Created | Verified

  /** How the choice ends: the session goes on with an id, the command exits
      with status 1 because an explicit id is unknown, or an exception
      escapes the command (`create_new_chat` or the listing raised, or an
      entry lacks the key the code indexes). */
  datatype Selection = Continue(id: string, origin: Origin) | NotFound | Crashed

  /** Starting a new conversation: `created` is `create_new_chat()['uuid']`,
      `None` where that raises. */
  function Create(created: Option<string>): Selection {
    match created
    case Some(id) => Continue(id, Created)
    case None => Crashed
  }

  /** The conversation a session continues. `configDefault` is the
      configuration's `default_conversation_id` (`None` when the key is
      absent). An explicit id counts only when it is truthy; `new_chat`
      overrides it. */
  function SelectConversation(conversationId: Option<string>, newChat: bool, configDefault: Option<string>,
                              created: Option<string>, listing: Listing): (r: Selection)
    ensures newChat ==>
      && (r.Continue? <==> created.Some?)
      && (r.Continue? ==> r.id == created.value && r.origin == Created)
      && !r.NotFound?
    ensures !newChat && !Truthy(conversationId) && configDefault.Some? ==>
      r == Continue(configDefault.value, FromDefault)
    ensures !newChat && !Truthy(conversationId) && configDefault.None? ==>
      && (r.Continue? <==> created.Some?)
      && (r.Continue? ==> r.id == created.value && r.origin == Created)
    ensures !newChat && Truthy(conversationId) ==>
      && (r.Crashed? <==> listing.ListingRaised? || !AllIdentified(listing.conversations))
      && (r.Continue? <==> listing.Listed? && AllIdentified(listing.conversations)
                           && Known(listing.conversations, conversationId.value))
      && (r.Continue? ==> r == Continue(conversationId.value, Verified))
  {
    if !Truthy(conversationId) && !newChat then
      match configDefault
      case Some(id) => Continue(id, FromDefault)
      case None => Create(created)
    else if newChat then Create(created)
    else
      match listing
      case ListingRaised => Crashed
      case Listed(convs) =>
        match Lookup(convs, conversationId.value)
        case None => Crashed
        case Some(found) => if found then Continue(conversationId.value, Verified) else NotFound
  }

  /** With `new_chat` set, neither the id given nor the configuration nor
      the listing matters: the choice depends only on what creation returns. */
  lemma NewChatIgnoresId(id1: Option<string>, id2: Option<string>, default1: Option<string>, default2: Option<string>,
                         created: Option<string>, listing1: Listing, listing2: Listing)
    ensures SelectConversation(id1, true, default1, created, listing1)
         == SelectConversation(id2, true, default2, created, listing2)
  {
  }

  /** An empty id is no id at all. */
  lemma EmptyIdIsAbsent(newChat: bool, configDefault: Option<string>, created: Option<string>, listing: Listing)
    ensures SelectConversation(Some(""), newChat, configDefault, created, listing)
         == SelectConversation(None, newChat, configDefault, created, listing)
  {
  }

  /** An explicit id is never replaced by the configured default or a new
      conversation: either it is continued as given, or the session does
      not start. */
  lemma ExplicitIdIsKept(id: string, configDefault: Option<string>, created: Option<string>, listing: Listing)
    requires id != ""
    ensures var r := SelectConversation(Some(id), false, configDefault, created, listing);
      r.Continue? ==> r.id == id && r.origin == Verified
  {
  }

  // ---------------------------------------------------------------------
  // One line typed at the prompt.

  /** What a line typed at the prompt asks for. */
  datatype Command = Quit | Help | ClearScreen | Attach(path: string) | Say(text: string)

  const QuitWord: string := "exit"
  const HelpWord: string := "help"
  const ClearWord: string := "clear"
  const AttachWord: string := "attach "

  /** The built-in commands are recognised case-insensitively; the path of
      `attach` is the rest of the line, stripped, in its original case; any
      other line is a message, sent as typed. */
  function Classify(input: string): (c: Command)
    ensures c == Quit <==> Lower(input) == QuitWord
    ensures c == Help <==> Lower(input) == HelpWord
    ensures c == ClearScreen <==> Lower(input) == ClearWord
    ensures c.Attach? <==> StartsWith(Lower(input), AttachWord)
    ensures c.Attach? ==> c.path == Strip(input[|AttachWord|..])
    ensures c.Say? ==> c.text == input
  {
    var lower := Lower(input);
    if lower == QuitWord then Quit
    else if lower == HelpWord then Help
    else if lower == ClearWord then ClearScreen
    else if StartsWith(lower, AttachWord) then Attach(Strip(input[|AttachWord|..]))
    else Say(input)
  }

  /** Two lines that differ only in the case of their letters ask for the
      same built-in command; only the path of `attach` and the text of a
      message keep their case. */
  lemma ClassifyIgnoresCase(a: string, b: string)
    requires Lower(a) == Lower(b)
    ensures Classify(a).Say? <==> Classify(b).Say?
    ensures Classify(a).Attach? <==> Classify(b).Attach?
    ensures !Classify(a).Say? && !Classify(a).Attach? ==> Classify(a) == Classify(b)
  {
  }

  /** A command as the user would type it. */
  function Render(c: Command): string {
    match c
    case Quit => QuitWord
    case Help => HelpWord
    case ClearScreen => ClearWord
    case Attach(path) => AttachWord + path
    case Say(text) => text
  }

  /** A command that can be typed: an attached path has no surrounding
      whitespace, and a message is not itself a command word. */
  predicate Typeable(c: Command) {
    match c
    case Attach(path) => Trimmed(path)
    case Say(text) =>
      Lower(text) != QuitWord && Lower(text) != HelpWord && Lower(text) != ClearWord
      && !StartsWith(Lower(text), AttachWord)
    case _ => true
  }

  /** Typing a command and classifying the line gives the command back. */
  lemma ClassifyRender(c: Command)
    requires Typeable(c)
    ensures Classify(Render(c)) == c
  {
    match c
    case Quit =>
      assert Lower(QuitWord) == QuitWord;
    case Help =>
      assert Lower(HelpWord) == HelpWord;
    case ClearScreen =>
      assert Lower(ClearWord) == ClearWord;
    case Attach(path) =>
      var line := AttachWord + path;
      assert Lower(line)[..|AttachWord|] == AttachWord;
      assert line[|AttachWord|..] == path;
      StripPadded([], path, []);
      assert [] + path + [] == path;
    case Say(text) =>
  }

  /** A line `attach <path>` with the word in any case attaches the stripped
      path, whatever the case of the path. */
  lemma AttachAnyCase(word: string, rest: string)
    requires Lower(word) == AttachWord
    ensures Classify(word + rest) == Attach(Strip(rest))
  {
    var line := word + rest;
    assert Lower(line)[..|AttachWord|] == Lower(word);
    assert line[|AttachWord|..] == rest;
  }

  // ---------------------------------------------------------------------
  // A whole session.

  /** One call of `send_message`: the text and the attached path, if any. */
  datatype Outgoing = Outgoing(message: string, attachment: Option<string>)

  /** How the loop stops: the user typed `exit`, or the input ended (end of
      file or Ctrl+C). */
  datatype Ending = ByExit | InputEnded

  /** The messages a session sends, in order, and how it stopped. */
  datatype SessionRun = SessionRun(sent: seq<Outgoing>, ending: Ending)

  function Prepend(m: Outgoing, run: SessionRun): SessionRun {
    SessionRun([m] + run.sent, run.ending)
  }

  /** The chat loop over the lines the user types. `help` and `clear` send
      nothing; `attach` with a missing path sends nothing, and with an
      existing path sends the NEXT line, whatever it says, with the
      attachment. A failed send is reported and the loop goes on, so every
      attempted send is listed. */
  function Session(inputs: seq<string>, onDisk: string -> bool): (run: SessionRun)
    ensures |run.sent| <= |inputs|
    ensures forall k :: 0 <= k < |run.sent| ==> run.sent[k].message in inputs
    ensures forall k :: 0 <= k < |run.sent| && run.sent[k].attachment.Some? ==>
      onDisk(run.sent[k].attachment.value)
    ensures run.ending == ByExit ==> exists k :: 0 <= k < |inputs| && Classify(inputs[k]) == Quit
    decreases |inputs|
  {
    if inputs == [] then SessionRun([], InputEnded)
    else
      var rest := Session(inputs[1..], onDisk);
      match Classify(inputs[0])
      case Quit => SessionRun([], ByExit)
      case Help => rest
      case ClearScreen => rest
      case Attach(path) =>
        if !onDisk(path) then rest
        else if |inputs| < 2 then SessionRun([], InputEnded)
        else Prepend(Outgoing(inputs[1], Some(path)), Session(inputs[2..], onDisk))
      case Say(text) => Prepend(Outgoing(text, None), rest)
  }

  /** `exit` in any case ends the session before anything else is sent. */
  lemma ExitEndsSession(line: string, rest: seq<string>, onDisk: string -> bool)
    requires Lower(line) == QuitWord
    ensures Session([line] + rest, onDisk) == SessionRun([], ByExit)
  {
  }

  /** `help` and `clear` leave the rest of the session as it would have been. */
  lemma QuietCommandsSendNothing(line: string, rest: seq<string>, onDisk: string -> bool)
    requires Lower(line) == HelpWord || Lower(line) == ClearWord
    ensures Session([line] + rest, onDisk) == Session(rest, onDisk)
  {
    assert ([line] + rest)[1..] == rest;
  }

  /** An `attach` whose path does not exist is skipped; one whose path
      exists sends the following line verbatim, even a command word. */
  lemma AttachConsumesNextLine(line: string, message: string, rest: seq<string>, onDisk: string -> bool)
    requires Classify(line).Attach?
    ensures !onDisk(Classify(line).path) ==>
      Session([line, message] + rest, onDisk) == Session([message] + rest, onDisk)
    ensures onDisk(Classify(line).path) ==>
      Session([line, message] + rest, onDisk)
        == Prepend(Outgoing(message, Some(Classify(line).path)), Session(rest, onDisk))
  {
    var inputs := [line, message] + rest;
    assert inputs[1..] == [message] + rest;
    assert inputs[2..] == rest;
  }

  /** A session of plain messages sends each of them once, in order, without
      attachments, and ends only when the input does. */
  lemma {:induction false} PlainMessagesSentInOrder(inputs: seq<string>, onDisk: string -> bool)
    requires forall k :: 0 <= k < |inputs| ==> Classify(inputs[k]).Say?
    ensures Session(inputs, onDisk).ending == InputEnded
    ensures |Session(inputs, onDisk).sent| == |inputs|
    ensures forall k :: 0 <= k < |inputs| ==> Session(inputs, onDisk).sent[k] == Outgoing(inputs[k], None)
    decreases |inputs|
  {
    if inputs != [] {
      PlainMessagesSentInOrder(inputs[1..], onDisk);
      var tail := Session(inputs[1..], onDisk);
      assert Session(inputs, onDisk) == Prepend(Outgoing(inputs[0], None), tail);
      forall k | 1 <= k < |inputs| ensures Session(inputs, onDisk).sent[k] == Outgoing(inputs[k], None) {
        assert Session(inputs, onDisk).sent[k] == tail.sent[k - 1];
        assert inputs[1..][k - 1] == inputs[k];
      }
    }
  }

  // ---------------------------------------------------------------------
  // The preview of earlier messages.

  const PreviewCount: nat := 6
  const PreviewWidth: nat := 100

  /** One previewed message: its role and its abbreviated text. */
  datatype PreviewLine = PreviewLine(role: string, text: string)

  /** The preview: none at all, or the lines shown and whether the list ran
      to the end (the closing banner is printed) or stopped at a message
      that could not be read. */
  datatype Preview = NoPreview | Shown(lines: seq<PreviewLine>, complete: bool)

  /** Python's `s[-n:]` for a positive `n`. */
  function Last<T>(s: seq<T>, n: nat): (r: seq<T>)
    ensures |r| == if |s| <= n then |s| else n
    ensures forall k :: 0 <= k < |r| ==> r[k] == s[|s| - |r| + k]
  {
    if |s| <= n then s else s[|s| - n..]
  }

  /** How one readable message is shown. */
  function PreviewOf(m: ChatMessage): PreviewLine
    requires Readable(m)
  {
    PreviewLine(Role(m), Abbreviate(m.text.value, PreviewWidth))
  }

  /** The lines printed for `messages`, up to the first one that cannot be
      read (the exception ends the preview; the session goes on). */
  function PreviewLines(messages: seq<ChatMessage>): (lines: seq<PreviewLine>)
    ensures |lines| <= |messages|
    ensures forall k :: 0 <= k < |lines| ==> Readable(messages[k]) && lines[k] == PreviewOf(messages[k])
    ensures |lines| < |messages| ==> !Readable(messages[|lines|])
  {
    if messages == [] || !Readable(messages[0]) then []
    else [PreviewOf(messages[0])] + PreviewLines(messages[1..])
  }

  /** The preview printed from the history reply: only for a history with a
      non-empty message list, over its last six messages. */
  function HistoryPreview(reply: HistoryReply): (p: Preview)
    ensures p.Shown? <==>
      reply.Fetched? && reply.history.messages.Some? && reply.history.messages.value != []
    ensures p.Shown? ==>
      var recent := Last(reply.history.messages.value, PreviewCount);
      && |p.lines| <= |recent| <= PreviewCount
      && (p.complete <==> |p.lines| == |recent|)
      && (forall k :: 0 <= k < |p.lines| ==> Readable(recent[k]) && p.lines[k] == PreviewOf(recent[k]))
      && (!p.complete ==> !Readable(recent[|p.lines|]))
  {
    match reply
    case HistoryRaised => NoPreview
    case Fetched(history) =>
      match history.messages
      case None => NoPreview
      case Some(messages) =>
        if messages == [] then NoPreview
        else
          var lines := PreviewLines(Last(messages, PreviewCount));
          Shown(lines, |lines| == |Last(messages, PreviewCount)|)
  }

  /** A readable history previews its most recent messages: as many as it
      has, up to six, the last line being its latest message, each text cut
      to 100 characters with an ellipsis when longer. */
  lemma PreviewOfReadableHistory(history: History)
    requires history.messages.Some? && history.messages.value != []
    requires forall k :: 0 <= k < |history.messages.value| ==> Readable(history.messages.value[k])
    ensures var p := HistoryPreview(Fetched(history));
      var ms := history.messages.value;
      && p.Shown? && p.complete
      && |p.lines| == (if |ms| < PreviewCount then |ms| else PreviewCount)
      && p.lines[|p.lines| - 1] == PreviewOf(ms[|ms| - 1])
      && forall k :: 0 <= k < |p.lines| ==> |p.lines[k].text| <= PreviewWidth + |Ellipsis|
  {
    var ms := history.messages.value;
    var recent := Last(ms, PreviewCount);
    var p := HistoryPreview(Fetched(history));
    forall k | 0 <= k < |recent| ensures Readable(recent[k]) {
      assert recent[k] == ms[|ms| - |recent| + k];
    }
    assert p.complete;
    forall k | 0 <= k < |p.lines| ensures |p.lines[k].text| <= PreviewWidth + |Ellipsis| {
      assert p.lines[k] == PreviewOf(recent[k]);
    }
    assert recent[|recent| - 1] == ms[|ms| - 1];
  }
}

=== FILE: client.dfy ===
/**
 The pure rules of `EnhancedClient` (claude_cli/utils/client.py): the
 extension-to-type table, the attachment step, the one completion request of
 `send_message` and the mapping of its reply to an answer, the status rules
 of the conversation calls, and the re-slicing of a generated UUID.

 HTTP is not modelled. A call is a value the client builds (`Request`,
 `UploadForm`) and a reply is a parameter: a function from the request to
 what the server answers.
 */
module Client {
  import opened Wrappers
  import opened Text
  import opened Extractor
  import opened Conversations

  // ---------------------------------------------------------------------
  // Paths (`os.path.basename`, `os.path.splitext` with `/` as separator).

  /** The index of the last `c` in `s`, or -1. */
  function LastIndexOf(s: string, c: char): (i: int)
    ensures -1 <= i < |s|
    ensures i >= 0 ==> s[i] == c
    ensures forall k :: i < k < |s| ==> s[k] != c
  {
    if s == [] then -1
    else if s[|s| - 1] == c then |s| - 1
    else LastIndexOf(s[..|s| - 1], c)
  }

  /** `os.path.basename(path)`: what follows the last `/`, which is the
      longest suffix of the path without a `/`. */
  function BaseName(path: string): (name: string)
    ensures EndsWith(path, name)
    ensures '/' !in name
    ensures name == path || path[|path| - |name| - 1] == '/'
  {
    path[LastIndexOf(path, '/') + 1..]
  }

  /** Some character in `s[from..to]` is not a dot. */
  predicate HasNonDot(s: string, from: int, to: int)
    requires 0 <= from <= to <= |s|
  {
    exists k :: from <= k < to && s[k] != '.'
  }

  /** `os.path.splitext(path)[1]`: from the last dot of the file name on,
      unless everything before that dot in the file name is dots. */
  function Extension(path: string): (ext: string)
    ensures ext == [] || (EndsWith(path, ext) && ext[0] == '.' && '.' !in ext[1..] && '/' !in ext)
  {
    var sep := LastIndexOf(path, '/');
    var dot := LastIndexOf(path, '.');
    if dot > sep && HasNonDot(path, sep + 1, dot) then
      assert forall k :: dot < k < |path| ==> path[k] != '.' && path[k] != '/';
      path[dot..]
    else []
  }

  /** Splitting a file name `stem.suffix` (after an optional directory)
      yields `.suffix` as long as the stem is not all dots. */
  lemma ExtensionOf(dir: string, stem: string, suffix: string)
    requires dir == [] || dir[|dir| - 1] == '/'
    requires '/' !in stem && '/' !in suffix && '.' !in suffix
    requires exists k :: 0 <= k < |stem| && stem[k] != '.'
    ensures Extension(dir + stem + "." + suffix) == "." + suffix
  {
    var path := dir + stem + "." + suffix;
    var dot := |dir| + |stem|;
    assert path[dot] == '.';
    assert forall k :: dot < k < |path| ==> path[k] == suffix[k - dot - 1];
    LastIndexOfIs(path, '.', dot);
    assert forall k :: |dir| <= k < |path| ==> path[k] != '/' by {
      forall k | |dir| <= k < |path| ensures path[k] != '/' {
        if k < dot { assert path[k] == stem[k - |dir|]; }
      }
    }
    if dir == [] {
      LastIndexOfNone(path, '/');
    } else {
      LastIndexOfIs(path, '/', |dir| - 1);
    }
    var sep := LastIndexOf(path, '/');
    assert sep + 1 == |dir|;
    var k :| 0 <= k < |stem| && stem[k] != '.';
    assert path[|dir| + k] == stem[k];
    assert HasNonDot(path, sep + 1, dot);
    assert path[dot..] == "." + suffix;
  }

  /** The other half: a file name whose stem is all dots (`.pdf`, `...txt`)
      has no extension, like a dotfile under `os.path.splitext`. */
  lemma DotStemHasNoExtension(dir: string, dots: string, suffix: string)
    requires dir == [] || dir[|dir| - 1] == '/'
    requires '/' !in suffix && '.' !in suffix
    requires forall k :: 0 <= k < |dots| ==> dots[k] == '.'
    ensures Extension(dir + dots + "." + suffix) == ""
    ensures ContentType(dir + dots + "." + suffix) == BinaryType
  {
    var path := dir + dots + "." + suffix;
    var dot := |dir| + |dots|;
    assert path[dot] == '.';
    assert forall k :: dot < k < |path| ==> path[k] == suffix[k - dot - 1];
    LastIndexOfIs(path, '.', dot);
    assert forall k :: |dir| <= k < |path| ==> path[k] != '/' by {
      forall k | |dir| <= k < |path| ensures path[k] != '/' {
        if k < dot { assert path[k] == dots[k - |dir|]; }
      }
    }
    if dir == [] {
      LastIndexOfNone(path, '/');
    } else {
      LastIndexOfIs(path, '/', |dir| - 1);
    }
    var sep := LastIndexOf(path, '/');
    assert sep + 1 == |dir|;
    forall k | sep + 1 <= k < dot ensures path[k] == '.' {
      assert path[k] == dots[k - |dir|];
    }
    assert !HasNonDot(path, sep + 1, dot);
    assert Lower(Extension(path)) == "";
  }

  lemma {:induction false} LastIndexOfIs(s: string, c: char, i: nat)
    requires i < |s| && s[i] == c
    requires forall k :: i < k < |s| ==> s[k] != c
    ensures LastIndexOf(s, c) == i
    decreases |s|
  {
    if i < |s| - 1 {
      LastIndexOfIs(s[..|s| - 1], c, i);
    }
  }

  lemma {:induction false} LastIndexOfNone(s: string, c: char)
    requires forall k :: 0 <= k < |s| ==> s[k] != c
    ensures LastIndexOf(s, c) == -1
    decreases |s|
  {
    if s != [] {
      LastIndexOfNone(s[..|s| - 1], c);
    }
  }

  // ---------------------------------------------------------------------
  // `get_content_type`.

  const PdfType: string := "application/pdf"
  const TextType: string := "text/plain"
  const CsvType: string := "text/csv"
  const BinaryType: string := "application/octet-stream"

  /** The content type of an upload, chosen by the lower-cased extension;
      anything not in the table is generic binary. */
  function ContentType(path: string): (t: string)
    ensures t == PdfType <==> Lower(Extension(path)) == ".pdf"
    ensures t == TextType <==> Lower(Extension(path)) == ".txt"
    ensures t == CsvType <==> Lower(Extension(path)) == ".csv"
    ensures t == BinaryType <==> Lower(Extension(path)) !in {".pdf", ".txt", ".csv"}
  {
    var ext := Lower(Extension(path));
    if ext == ".pdf" then PdfType
    else if ext == ".txt" then TextType
    else if ext == ".csv" then CsvType
    else BinaryType
  }

  // ---------------------------------------------------------------------
  // `upload_attachment`.

  /** The file on disk, as the client would read it: its size in bytes and
      its decoded text. */
  datatype LocalFile = LocalFile(size: nat, content: string)

  /** The multipart form posted to the document-conversion endpoint. */
  datatype UploadForm = UploadForm(fileName: string, contentType: string, organization: string)

  /** The conversion endpoint's reply: its status, and the decoded JSON body
      when that body is truthy. */
  datatype Conversion = Conversion(status: nat, descriptor: Option<string>)

  /** An attachment of a message: the inline descriptor of a text file, or
      the descriptor the conversion endpoint returned. */
  datatype Attachment =
    | Inline(fileName: string, fileType: string, fileSize: nat, extractedContent: string)
    | Converted(descriptor: string)

  const TextSuffix: string := ".txt"

  /** The form a non-text file is uploaded with. */
  function FormFor(path: string, organization: string): UploadForm {
    UploadForm(BaseName(path), ContentType(path), organization)
  }

  /** The attachment made from a path, or `None` for the source's `False`.
      A path ending in `.txt` (case-sensitively) is read and inlined and
      never fails here; any other path is uploaded, and only a 200 reply with
      a truthy body yields an attachment. */
  function UploadAttachment(path: string, organization: string, file: LocalFile,
                            convert: UploadForm -> Conversion): (a: Option<Attachment>)
    ensures EndsWith(path, TextSuffix) ==>
      a == Some(Inline(BaseName(path), TextType, file.size, file.content))
    ensures !EndsWith(path, TextSuffix) ==>
      var reply := convert(FormFor(path, organization));
      && (a.Some? <==> reply.status == 200 && reply.descriptor.Some?)
      && (a.Some? ==> a.value == Converted(reply.descriptor.value))
  {
    if EndsWith(path, TextSuffix) then
      Some(Inline(BaseName(path), TextType, file.size, file.content))
    else
      var reply := convert(FormFor(path, organization));
      if reply.status == 200 && reply.descriptor.Some? then Some(Converted(reply.descriptor.value))
      else None
  }

  /** The inline branch tests `.txt` case-sensitively while the type table
      lower-cases: `notes.TXT` is uploaded for conversion as `text/plain`
      whereas `notes.txt` is inlined. */
  lemma TextSuffixIsCaseSensitive(organization: string, file: LocalFile, convert: UploadForm -> Conversion)
    ensures var a := UploadAttachment("notes.txt", organization, file, convert);
      a.Some? && a.value.Inline?
    ensures var form := FormFor("notes.TXT", organization);
      && form.contentType == TextType
      && (UploadAttachment("notes.TXT", organization, file, convert).Some? <==>
            convert(form).status == 200 && convert(form).descriptor.Some?)
  {
    assert "notes.txt"[9 - |TextSuffix|..] == TextSuffix;
    assert "notes.TXT"[9 - |TextSuffix|..] != TextSuffix by {
      assert "notes.TXT"[6] == 'T';
    }
    assert "notes"[0] != '.';
    ExtensionOf([], "notes", "TXT");
    assert [] + "notes" + "." + "TXT" == "notes.TXT";
    assert Lower(".TXT") == ".txt";
  }

  // ---------------------------------------------------------------------
  // `send_message`.

  const CompletionUrl: string := "https://claude.ai/api/append_message"
  const CompletionModel: string := "claude-2"
  const CompletionTimezone: string := "UTC"
  const InvalidFileReply: string := "Error: Invalid file format. Please try again."
  const FailurePrefix: string := "Error communicating with Claude: "

  /** The one completion request `send_message` posts. */
  datatype Request = Request(
    url: string,
    prompt: string,
    timezone: string,
    model: string,
    organization: string,
    conversation: string,
    text: string,
    attachments: seq<Attachment>)

  /** What posting the request gives: the decoded body (whatever the status),
      or the text of an exception the transport raised. */
  datatype Delivery = Delivered(body: string) | Raised(error: string)

  /** The outcome of `send_message`: the request posted, if any, and the
      string returned. */
  datatype Sent = Sent(request: Option<Request>, reply: string)

  /** One call of `send_message`. `typeError` is the text of the `TypeError`
      raised when a payload is unsupported. */
  function SendMessage(prompt: string, conversation: string, organization: string,
                       attachment: Option<string>, file: LocalFile, convert: UploadForm -> Conversion,
                       post: Request -> Delivery, parse: string -> Parsed, typeError: string): (r: Sent)
    ensures r.request.None? <==>
      Truthy(attachment) && UploadAttachment(attachment.value, organization, file, convert).None?
    ensures r.request.None? ==> r.reply == InvalidFileReply
    ensures r.request.Some? ==>
      var q := r.request.value;
      && q.url == CompletionUrl && q.model == CompletionModel
      && q.timezone == CompletionTimezone
      && q.prompt == prompt && q.text == prompt
      && q.conversation == conversation && q.organization == organization
      && q.attachments ==
           (if Truthy(attachment) then [UploadAttachment(attachment.value, organization, file, convert).value]
            else [])
    ensures r.request.Some? && post(r.request.value).Raised? ==>
      r.reply == FailurePrefix + post(r.request.value).error
  {
    var uploaded :=
      if Truthy(attachment) then UploadAttachment(attachment.value, organization, file, convert) else None;
    if Truthy(attachment) && uploaded.None? then Sent(None, InvalidFileReply)
    else
      var attachments := if Truthy(attachment) then [uploaded.value] else [];
      var q := Request(CompletionUrl, prompt, CompletionTimezone, CompletionModel,
                       organization, conversation, prompt, attachments);
      match post(q)
      case Raised(e) => Sent(Some(q), FailurePrefix + e)
      case Delivered(body) =>
        match ExtractAnswer(body, parse)
        case Faulted => Sent(Some(q), FailurePrefix + typeError)
        case Collected(answer) => Sent(Some(q), answer)
  }

  /** A delivered reply becomes the extracted answer, or the error text when
      extraction raised; the returned string is empty only for an empty body. */
  lemma DeliveredReply(prompt: string, conversation: string, organization: string,
                       attachment: Option<string>, file: LocalFile, convert: UploadForm -> Conversion,
                       post: Request -> Delivery, parse: string -> Parsed, typeError: string)
    ensures var r := SendMessage(prompt, conversation, organization, attachment, file, convert, post, parse, typeError);
      r.request.Some? && post(r.request.value).Delivered? ==>
        var body := post(r.request.value).body;
        && (ExtractAnswer(body, parse).Collected? ==> r.reply == ExtractAnswer(body, parse).text)
        && (ExtractAnswer(body, parse).Faulted? ==> r.reply == FailurePrefix + typeError)
        && (r.reply == "" <==> body == "")
  {
  }

  /** A text-file attachment never short-circuits: the request is posted and
      carries the inline descriptor. */
  lemma TextAttachmentPosted(prompt: string, conversation: string, organization: string,
                             path: string, file: LocalFile, convert: UploadForm -> Conversion,
                             post: Request -> Delivery, parse: string -> Parsed, typeError: string)
    requires EndsWith(path, TextSuffix)
    ensures var r := SendMessage(prompt, conversation, organization, Some(path), file, convert, post, parse, typeError);
      r.request.Some? && r.request.value.attachments == [Inline(BaseName(path), TextType, file.size, file.content)]
  {
  }

  // ---------------------------------------------------------------------
  // Status rules of the conversation calls.

  /** An HTTP reply: status code and decoded body. */
  datatype Response = Response(status: nat, body: string)

  /** `delete_conversation`: whether the reply counts as a success. */
  function DeleteConversation(reply: Response): bool {
    reply.status == 204
  }

  /** `rename_chat`: whether the reply counts as a success. */
  function RenameChat(reply: Response): bool {
    reply.status == 200
  }

  /** A delete succeeds on 204 only and a rename on 200 only, so no reply
      makes both succeed; in particular 200 is a failed delete. */
  lemma DeleteAndRenameDisagree(reply: Response)
    ensures DeleteConversation(reply) <==> reply.status == 204
    ensures RenameChat(reply) <==> reply.status == 200
    ensures !(DeleteConversation(reply) && RenameChat(reply))
  {
  }

  /** `list_all_conversations`: the parsed list on 200, and the empty list on
      any other status or when the body is not JSON. `parseList` stands for
      `json.loads`. */
  function ListAllConversations(reply: Response, parseList: string -> Option<seq<Conversation>>): (convs: seq<Conversation>)
    ensures reply.status != 200 ==> convs == []
    ensures reply.status == 200 && parseList(reply.body).None? ==> convs == []
    ensures reply.status == 200 && parseList(reply.body).Some? ==> convs == parseList(reply.body).value
  {
    if reply.status == 200 then parseList(reply.body).GetOr([]) else []
  }

  /** A failed listing cannot be told apart from an account without
      conversations: an error status, an undecodable body and an empty list
      all give the same result. */
  lemma ListingErrorsLookEmpty(reply: Response, parseList: string -> Option<seq<Conversation>>,
                               empty: Response)
    requires empty.status == 200 && parseList(empty.body) == Some([])
    requires reply.status != 200 || parseList(reply.body).None?
    ensures ListAllConversations(reply, parseList) == ListAllConversations(empty, parseList) == []
  {
  }

  /** The result of `chat_conversation_history`: the parsed history, or an
      error object carrying a message. */
  datatype HistoryResult = HistoryOk(history: History) | HistoryError(error: string)

  const HistoryParseError: string := "Failed to parse conversation history"
  const HistoryStatusPrefix: string := "Failed to get conversation history: "

  function ChatConversationHistory(reply: Response, parseHistory: string -> Option<History>): (h: HistoryResult)
    ensures h.HistoryOk? <==> reply.status == 200 && parseHistory(reply.body).Some?
    ensures reply.status == 200 && parseHistory(reply.body).None? ==> h == HistoryError(HistoryParseError)
    ensures reply.status != 200 ==> h.HistoryError? && StartsWith(h.error, HistoryStatusPrefix)
  {
    if reply.status == 200 then
      match parseHistory(reply.body)
      case Some(history) => HistoryOk(history)
      case None => HistoryError(HistoryParseError)
    else HistoryError(HistoryStatusPrefix + Decimal(reply.status))
  }

  /** The error for a failed status names that status: the digits after the
      fixed prefix read back as the status code. */
  lemma HistoryErrorNamesStatus(reply: Response, parseHistory: string -> Option<History>)
    requires reply.status != 200
    ensures var h := ChatConversationHistory(reply, parseHistory);
      && h.error[|HistoryStatusPrefix|..] == Decimal(reply.status)
      && DigitsValue(h.error[|HistoryStatusPrefix|..]) == reply.status
  {
    var h := ChatConversationHistory(reply, parseHistory);
    assert h.error == HistoryStatusPrefix + Decimal(reply.status);
    assert h.error[|HistoryStatusPrefix|..] == Decimal(reply.status);
    DecimalRoundTrip(reply.status);
  }

  // ---------------------------------------------------------------------
  // `generate_uuid`.

  /** `generate_uuid` applied to `str(uuid.uuid4())`: the four dash-separated
      slices put back together around dashes. */
  function GenerateUuid(random: string): (id: string)
    ensures |random| >= 24 ==> |id| == |random| && DashesInPlace(id)
  {
    Slice(random, 0, 8) + "-" + Slice(random, 9, 13) + "-" + Slice(random, 14, 18) + "-"
      + Slice(random, 19, 23) + "-" + Drop(random, 24)
  }

  predicate IsDash(i: int) {
    i == 8 || i == 13 || i == 18 || i == 23
  }

  /** Dashes at indices 8, 13, 18 and 23. */
  predicate DashesInPlace(s: string) {
    |s| >= 24 && s[8] == '-' && s[13] == '-' && s[18] == '-' && s[23] == '-'
  }

  predicate IsLowerHex(c: char) {
    '0' <= c <= '9' || 'a' <= c <= 'f'
  }

  /** The canonical 8-4-4-4-12 form: 36 characters, dashes in place, lower-case
      hexadecimal digits everywhere else. */
  predicate Canonical(s: string) {
    && |s| == 36
    && DashesInPlace(s)
    && forall i :: 0 <= i < |s| && !IsDash(i) ==> IsLowerHex(s[i])
  }

  /** A string already in the dashed form is returned unchanged. */
  lemma GenerateUuidKeepsDashed(s: string)
    requires DashesInPlace(s)
    ensures GenerateUuid(s) == s
  {
    var id := GenerateUuid(s);
    assert s == s[0..8] + [s[8]] + s[9..13] + [s[13]] + s[14..18] + [s[18]] + s[19..23] + [s[23]] + s[24..];
  }

  /** Re-slicing is idempotent on anything at least 24 characters long. */
  lemma GenerateUuidIdempotent(s: string)
    requires |s| >= 24
    ensures GenerateUuid(GenerateUuid(s)) == GenerateUuid(s)
  {
    GenerateUuidKeepsDashed(GenerateUuid(s));
  }

  /** `str(u)` of a UUID with 32 hexadecimal digits `h`. */
  function Hyphenated(h: string): (s: string)
    requires |h| == 32
    ensures |s| == 36
  {
    h[..8] + "-" + h[8..12] + "-" + h[12..16] + "-" + h[16..20] + "-" + h[20..]
  }

  /** Every generated id is canonical: re-slicing the string of a random UUID
      returns it unchanged, in the 8-4-4-4-12 form. */
  lemma GeneratedUuidCanonical(h: string)
    requires |h| == 32 && forall i :: 0 <= i < 32 ==> IsLowerHex(h[i])
    ensures Canonical(GenerateUuid(Hyphenated(h)))
    ensures GenerateUuid(Hyphenated(h)) == Hyphenated(h)
  {
    var s := Hyphenated(h);
    HyphenatedLayout(h);
    GenerateUuidKeepsDashed(s);
    forall i | 0 <= i < 36 && !IsDash(i)
      ensures IsLowerHex(s[i])
    {
      var j := if i < 8 then i else if i < 13 then i - 1 else if i < 18 then i - 2 else if i < 23 then i - 3 else i - 4;
      assert s[i] == h[j];
    }
  }

  lemma HyphenatedLayout(h: string)
    requires |h| == 32
    ensures var s := Hyphenated(h);
      && DashesInPlace(s)
      && (forall i :: 0 <= i < 8 ==> s[i] == h[i])
      && (forall i :: 9 <= i < 13 ==> s[i] == h[i - 1])
      && (forall i :: 14 <= i < 18 ==> s[i] == h[i - 2])
      && (forall i :: 19 <= i < 23 ==> s[i] == h[i - 3])
      && (forall i :: 24 <= i < 36 ==> s[i] == h[i - 4])
  {
  }
}

=== FILE: conversations.dfy ===
/**
 The conversation records the service returns, as far as the client and the
 command modules read them. Every field is optional because the code reads
 each with `dict.get`, a membership test or an indexing that may fail.
 */
module Conversations {
  import opened Wrappers

  /** One message of a conversation: `message['sender']` and
      `message['message']['content'][0]['text']`; `None` where that lookup
      raises. */
  datatype ChatMessage = ChatMessage(sender: Option<string>, text: Option<string>)

  /** A message both history views can show without raising. */
  predicate Readable(m: ChatMessage) {
    m.sender.Some? && m.text.Some?
  }

  /** The role shown for a message: "You" exactly when the sender is `human`. */
  function Role(m: ChatMessage): string {
    if m.sender == Some("human") then "You" else "Claude"
  }

  /** One entry of the conversation list. */
  datatype Conversation = Conversation(
    uuid: Option<string>,
    name: Option<string>,
    createdAt: Option<string>,
    messages: Option<seq<ChatMessage>>)

  /** A conversation's history: its name and its `chat_messages`, either of
      which may be missing (an error object has neither). */
  datatype History = History(name: Option<string>, messages: Option<seq<ChatMessage>>)

  /** What the listing call gives back to a command: the list, or an exception. */
  datatype Listing = Listed(conversations: seq<Conversation>) | ListingRaised

  /** What the history call gives back to a command. */
  datatype HistoryReply = Fetched(history: History) | HistoryRaised

  /** `[conv['uuid'] for conv in conversations]`: `None` when some entry has
      no `uuid` and the comprehension raises `KeyError`. */
  function Uuids(convs: seq<Conversation>): (ids: Option<seq<string>>)
    ensures ids.Some? <==> forall k :: 0 <= k < |convs| ==> convs[k].uuid.Some?
    ensures ids.Some? ==> |ids.value| == |convs|
    ensures ids.Some? ==> forall k :: 0 <= k < |convs| ==> ids.value[k] == convs[k].uuid.value
  {
    if convs == [] then Some([])
    else
      match (convs[0].uuid, Uuids(convs[1..]))
      case (Some(u), Some(rest)) => Some([u] + rest)
      case _ => None
  }

  /** The listed conversations include one whose `uuid` is `id`. */
  predicate Known(convs: seq<Conversation>, id: string) {
    exists k :: 0 <= k < |convs| && convs[k].uuid == Some(id)
  }

  /** Every listed conversation carries a `uuid`. */
  predicate AllIdentified(convs: seq<Conversation>) {
    forall k :: 0 <= k < |convs| ==> convs[k].uuid.Some?
  }

  /** `conversation_id in [conv['uuid'] for conv in conversations]`: `None`
      where building the list raises, otherwise whether the id is listed. */
  function Lookup(convs: seq<Conversation>, id: string): (found: Option<bool>)
    ensures found.Some? <==> AllIdentified(convs)
    ensures found.Some? ==> (found.value <==> Known(convs, id))
  {
    match Uuids(convs)
    case None => None
    case Some(ids) =>
      if id in ids then
        var k :| 0 <= k < |ids| && ids[k] == id;
        assert convs[k].uuid == Some(id);
        Some(true)
      else
        assert !Known(convs, id) by {
          forall k | 0 <= k < |convs| ensures convs[k].uuid != Some(id) {
            assert ids[k] == convs[k].uuid.value;
          }
        }
        Some(false)
  }
}

=== FILE: extractor.dfy ===
/**
 The completion-response extractor of `EnhancedClient.send_message`
 (claude_cli/utils/client.py:148-183): it turns the decoded body of the
 completion request into one answer string.

 1. The body is split on newlines; each piece is stripped and only pieces
    starting with `data:` are kept.
 2. The payload after `data:` is handed to `json.loads`. A parsed record
    contributes its `completion` value, or nothing when it has none. A payload
    that fails to parse contributes the first `"completion": "..."` the regular
    expression finds in that line, or nothing.
 3. When the contributions join to the empty string and the body is not
    empty, every match of the expression across the whole body is joined
    instead.
 4. When that is empty too, the answer is a fixed header followed by at most
    500 characters of the body.

 `json.loads` itself is not modelled: it is a parameter `parse` that says,
 for each payload, what the extractor gets back from it.
 */
module Extractor {
  import opened Wrappers
  import opened Text
  import opened CompletionPattern

  /** What `json.loads` makes of one payload, as far as the extractor looks at it. */
  datatype Parsed =
      /** A record; `completion` is the string under that key, if the key is
          present. A string or list in which the membership test finds no
          `completion` behaves as a record without the key. */
    | Object(completion: Option<string>)
      /** `json.JSONDecodeError`. */
    | Malformed
      /** A value on which the membership test, the indexing or the final
          join raises `TypeError` (not an object, or a completion that is not a
          string). */
    | Unsupported

  /** The result of extraction: the text collected, or a `TypeError` that
      escaped the loop (the caller turns it into an error message). */
  datatype Pass = Collected(text: string) | Faulted

  /** Running two passes one after the other: texts join, a fault wins. */
  function Then(a: Pass, b: Pass): Pass {
    if a.Faulted? || b.Faulted? then Faulted else Collected(a.text + b.text)
  }

  const DataPrefix: string := "data:"

  /** A line that, once stripped, starts with `data:`. */
  predicate IsDataLine(line: string) {
    StartsWith(Strip(line), DataPrefix)
  }

  /** The JSON text of a data line: what follows `data:`, stripped. */
  function Payload(line: string): string
    requires IsDataLine(line)
  {
    Strip(Strip(line)[|DataPrefix|..])
  }

  /** A data line whose payload makes the loop raise. */
  predicate Faults(line: string, parse: string -> Parsed) {
    IsDataLine(line) && parse(Payload(line)).Unsupported?
  }

  predicate FaultFree(lines: seq<string>, parse: string -> Parsed) {
    forall k :: 0 <= k < |lines| ==> !Faults(lines[k], parse)
  }

  /** What one line of the body adds to the answer. */
  function LineFragment(line: string, parse: string -> Parsed): Pass {
    if !IsDataLine(line) then Collected("")
    else
      match parse(Payload(line))
      case Object(c) => Collected(c.GetOr(""))
      case Malformed => Collected(Search(Strip(line)).GetOr(""))
      case Unsupported => Faulted
  }

  /** The per-line pass: the fragments of all lines, in line order. A fault
      on any line is a fault of the pass; nothing else stops it. */
  function LinePass(lines: seq<string>, parse: string -> Parsed): Pass {
    if lines == [] then Collected("")
    else Then(LineFragment(lines[0], parse), LinePass(lines[1..], parse))
  }

  /** The pass faults exactly when one of its lines does. */
  lemma {:induction false} LinePassFaults(lines: seq<string>, parse: string -> Parsed)
    ensures LinePass(lines, parse).Faulted? <==> !FaultFree(lines, parse)
  {
    if lines != [] {
      LinePassFaults(lines[1..], parse);
      if Faults(lines[0], parse) {
        assert !FaultFree(lines, parse) by { assert Faults(lines[0], parse); }
      } else {
        assert LineFragment(lines[0], parse).Collected?;
        assert FaultFree(lines, parse) <==> FaultFree(lines[1..], parse) by {
          if FaultFree(lines[1..], parse) {
            forall k | 0 <= k < |lines| ensures !Faults(lines[k], parse) {
              if k > 0 { assert lines[k] == lines[1..][k - 1]; }
            }
          }
          if FaultFree(lines, parse) {
            forall k | 0 <= k < |lines[1..]| ensures !Faults(lines[1..][k], parse) {
              assert lines[1..][k] == lines[k + 1];
            }
          }
        }
      }
    }
  }

  /** `''.join(parts)`. */
  function Concat(parts: seq<string>): string {
    if parts == [] then "" else parts[0] + Concat(parts[1..])
  }

  const DiagnosticHeader: string := "Failed to parse Claude's response. Raw data snippet:\n\n"
  const SnippetLimit: nat := 500

  /** The part of the body the diagnostic shows. */
  function Snippet(body: string): string {
    Abbreviate(body, SnippetLimit)
  }

  /** The whole-body salvage: every match of the expression, joined. */
  function Salvage(body: string): string {
    Concat(FindAll(body))
  }

  /** The answer extracted from a decoded body. Only a body that is empty
      gives an empty answer; a fault happens exactly when some data line's
      payload is unsupported. */
  function ExtractAnswer(body: string, parse: string -> Parsed): (r: Pass)
    ensures r.Faulted? <==> !FaultFree(SplitLines(body), parse)
    ensures body == "" ==> r == Collected("")
    ensures r.Collected? && body != "" ==> r.text != ""
  {
    var lines := SplitLines(body);
    LinePassFaults(lines, parse);
    match LinePass(lines, parse)
    case Faulted => Faulted
    case Collected(answer) =>
      if answer != "" || body == "" then
        assert body == "" ==> lines == [""] && Strip("") == "";
        Collected(answer)
      else if Salvage(body) != "" then Collected(Salvage(body))
      else Collected(DiagnosticHeader + Snippet(body))
  }

  // ---------------------------------------------------------------------
  // Properties of the per-line pass.

  lemma ThenAssociative(a: Pass, b: Pass, c: Pass)
    ensures Then(Then(a, b), c) == Then(a, Then(b, c))
  {
    if !a.Faulted? && !b.Faulted? && !c.Faulted? {
      assert a.text + b.text + c.text == a.text + (b.text + c.text);
    }
  }

  /** The pass over two blocks of lines is the pass over the first block
      followed by the pass over the second: fragments keep line order. */
  lemma {:induction false} LinePassAppend(a: seq<string>, b: seq<string>, parse: string -> Parsed)
    ensures LinePass(a + b, parse) == Then(LinePass(a, parse), LinePass(b, parse))
  {
    if a == [] {
      assert a + b == b;
      var p := LinePass(b, parse);
      if p.Collected? {
        assert "" + p.text == p.text;
      }
    } else {
      assert (a + b)[1..] == a[1..] + b;
      LinePassAppend(a[1..], b, parse);
      ThenAssociative(LineFragment(a[0], parse), LinePass(a[1..], parse), LinePass(b, parse));
    }
  }

  /** The data lines of a body, in order. */
  function DataLines(lines: seq<string>): (r: seq<string>)
    ensures forall k :: 0 <= k < |r| ==> IsDataLine(r[k])
  {
    if lines == [] then []
    else if IsDataLine(lines[0]) then [lines[0]] + DataLines(lines[1..])
    else DataLines(lines[1..])
  }

  /** Only data lines contribute: dropping every other line leaves the pass
      unchanged. */
  lemma {:induction false} OnlyDataLinesCount(lines: seq<string>, parse: string -> Parsed)
    ensures LinePass(lines, parse) == LinePass(DataLines(lines), parse)
  {
    if lines != [] {
      OnlyDataLinesCount(lines[1..], parse);
      var rest := LinePass(lines[1..], parse);
      if !IsDataLine(lines[0]) && rest.Collected? {
        assert "" + rest.text == rest.text;
      }
    }
  }

  /** Data lines whose payloads all parse to records yield their completions
      joined in line order, a record without a completion adding nothing. */
  lemma {:induction false} CompletionsInOrder(lines: seq<string>, fragments: seq<string>, parse: string -> Parsed)
    requires |lines| == |fragments|
    requires forall k :: 0 <= k < |lines| ==>
      && IsDataLine(lines[k]) && parse(Payload(lines[k])).Object?
      && parse(Payload(lines[k])).completion.GetOr("") == fragments[k]
    ensures LinePass(lines, parse) == Collected(Concat(fragments))
  {
    if lines != [] {
      CompletionsInOrder(lines[1..], fragments[1..], parse);
    }
  }

  /** A line whose payload does not parse never stops the pass: it adds the
      first completion the expression finds in it, or nothing, and the lines
      after it still contribute. */
  lemma MalformedLineTolerated(pre: seq<string>, line: string, post: seq<string>, parse: string -> Parsed)
    requires IsDataLine(line) && parse(Payload(line)) == Malformed
    requires FaultFree(pre, parse) && FaultFree(post, parse)
    ensures var p, q := LinePass(pre, parse), LinePass(post, parse);
      && p.Collected? && q.Collected?
      && LinePass(pre + [line] + post, parse) == Collected(p.text + Search(Strip(line)).GetOr("") + q.text)
  {
    LinePassFaults(pre, parse);
    LinePassFaults(post, parse);
    var v := Search(Strip(line)).GetOr("");
    assert LineFragment(line, parse) == Collected(v);
    assert [line][1..] == [];
    assert LinePass([line], parse) == Then(Collected(v), Collected("")) == Collected(v);
    LinePassAppend(pre, [line], parse);
    LinePassAppend(pre + [line], post, parse);
  }

  // ---------------------------------------------------------------------
  // Whole-body properties.

  const EventPrefix: string := "data: "

  /** A data line as a server writes it: `data: ` and a trimmed payload. */
  lemma EventLine(payload: string)
    requires payload != [] && Trimmed(payload)
    ensures IsDataLine(EventPrefix + payload)
    ensures Payload(EventPrefix + payload) == payload
  {
    var line := EventPrefix + payload;
    StripPadded([], line, []);
    assert [] + line + [] == line;
    assert line[..|DataPrefix|] == DataPrefix;
    assert line[|DataPrefix|..] == " " + payload;
    StripPadded(" ", payload, []);
    assert " " + payload + [] == " " + payload;
  }

  /** An event stream: lines `data: <json>` whose records each carry a
      completion. The answer is the completions joined in order (when that
      is not empty). */
  lemma StreamAnswer(payloads: seq<string>, fragments: seq<string>, parse: string -> Parsed)
    requires |payloads| == |fragments| >= 1
    requires forall k :: 0 <= k < |payloads| ==>
      payloads[k] != [] && Trimmed(payloads[k]) && '\n' !in payloads[k]
    requires forall k :: 0 <= k < |payloads| ==> parse(payloads[k]) == Object(Some(fragments[k]))
    requires Concat(fragments) != ""
    ensures ExtractAnswer(JoinLines(EventLines(payloads)), parse) == Collected(Concat(fragments))
  {
    var lines := EventLines(payloads);
    EventLinesParse(payloads, fragments, parse);
    SplitJoin(lines);
    CompletionsInOrder(lines, fragments, parse);
    var body := JoinLines(lines);
    assert SplitLines(body) == lines;
    assert LinePass(SplitLines(body), parse) == Collected(Concat(fragments));
  }

  lemma EventLinesParse(payloads: seq<string>, fragments: seq<string>, parse: string -> Parsed)
    requires |payloads| == |fragments|
    requires forall k :: 0 <= k < |payloads| ==>
      payloads[k] != [] && Trimmed(payloads[k]) && '\n' !in payloads[k]
    requires forall k :: 0 <= k < |payloads| ==> parse(payloads[k]) == Object(Some(fragments[k]))
    ensures var lines := EventLines(payloads);
      forall k :: 0 <= k < |lines| ==>
        && '\n' !in lines[k]
        && IsDataLine(lines[k]) && parse(Payload(lines[k])) == Object(Some(fragments[k]))
  {
    var lines := EventLines(payloads);
    forall k | 0 <= k < |lines|
      ensures '\n' !in lines[k]
      ensures IsDataLine(lines[k]) && parse(Payload(lines[k])) == Object(Some(fragments[k]))
    {
      var line := EventPrefix + payloads[k];
      assert lines[k] == line;
      EventLine(payloads[k]);
      NoNewlineJoin(EventPrefix, payloads[k]);
    }
  }

  lemma NoNewlineJoin(a: string, b: string)
    requires '\n' !in a && '\n' !in b
    ensures '\n' !in a + b
  {
  }

  /** The lines `data: <payload>` of an event stream. */
  function EventLines(payloads: seq<string>): (lines: seq<string>)
    ensures |lines| == |payloads|
    ensures forall k :: 0 <= k < |payloads| ==> lines[k] == EventPrefix + payloads[k]
  {
    if payloads == [] then [] else [EventPrefix + payloads[0]] + EventLines(payloads[1..])
  }

  /** No line of the body is a data line. */
  predicate NotAStream(body: string) {
    var lines := SplitLines(body);
    forall k :: 0 <= k < |lines| ==> !IsDataLine(lines[k])
  }

  /** No line is a data line: the per-line pass finds nothing. */
  lemma NoDataLines(lines: seq<string>, parse: string -> Parsed)
    requires forall k :: 0 <= k < |lines| ==> !IsDataLine(lines[k])
    ensures LinePass(lines, parse) == Collected("")
  {
    OnlyDataLinesCount(lines, parse);
    assert DataLines(lines) == [] by {
      if DataLines(lines) != [] {
        DataLinesFrom(lines, DataLines(lines)[0]);
      }
    }
  }

  lemma {:induction false} DataLinesFrom(lines: seq<string>, line: string)
    requires line in DataLines(lines)
    ensures line in lines
  {
    if lines != [] && !(IsDataLine(lines[0]) && line == lines[0]) {
      DataLinesFrom(lines[1..], line);
    }
  }

  /** A flat JSON document (no data lines) holding one well-formed
      `"completion": "..."` field is answered by the salvage: its value. */
  lemma FlatDocumentSalvaged(before: string, after: string, value: string, rest: string, parse: string -> Parsed)
    requires AllSpace(before) && AllSpace(after) && '"' !in value && value != ""
    requires forall k :: 0 <= k <= |rest| ==> !KeyAt(rest, k)
    requires NotAStream(Field(before, after, value) + rest)
    ensures ExtractAnswer(Field(before, after, value) + rest, parse) == Collected(value)
  {
    var body := Field(before, after, value) + rest;
    SingleField(before, after, value, rest);
    assert Concat([value]) == value + Concat([]);
    assert Salvage(body) == Concat([value]);
    NoDataLines(SplitLines(body), parse);
    SalvagedWhenPassEmpty(body, parse);
  }

  /** When the per-line pass of a non-empty body collects nothing (no data
      lines, records without completions, lines the expression misses), the
      whole-body salvage answers whenever it finds text. */
  lemma SalvagedWhenPassEmpty(body: string, parse: string -> Parsed)
    requires LinePass(SplitLines(body), parse) == Collected("")
    requires Salvage(body) != ""
    ensures ExtractAnswer(body, parse) == Collected(Salvage(body))
  {
  }

  /** The expression finds exactly the one field of a text with a single key. */
  lemma SingleField(before: string, after: string, value: string, rest: string)
    requires AllSpace(before) && AllSpace(after) && '"' !in value
    requires forall k :: 0 <= k <= |rest| ==> !KeyAt(rest, k)
    ensures FindAll(Field(before, after, value) + rest) == [value]
  {
    var f := Field(before, after, value);
    Prefix(f, rest);
    FieldMatchesAt(f + rest, 0, before, after, value);
    NothingAfter(f, rest);
  }

  lemma Prefix(f: string, rest: string)
    ensures (f + rest)[0..|f|] == f
  {
  }

  /** Nothing is found past a prefix when what follows it has no key. */
  lemma NothingAfter(f: string, rest: string)
    requires forall k :: 0 <= k <= |rest| ==> !KeyAt(rest, k)
    ensures FindAllFrom(f + rest, |f|) == []
  {
    var body := f + rest;
    forall k | |f| <= k <= |body|
      ensures !KeyAt(body, k)
    {
      KeyAtShift(f, rest, k - |f|);
    }
    NoKeyNoMatch(body, |f|);
  }

  lemma KeyAtShift(f: string, rest: string, k: nat)
    requires k <= |rest|
    ensures KeyAt(f + rest, |f| + k) ==> KeyAt(rest, k)
  {
    if KeyAt(f + rest, |f| + k) {
      assert (f + rest)[|f| + k..|f| + k + |Key|] == rest[k..k + |Key|];
    }
  }

  /** When the per-line pass of a non-empty body collects nothing and the
      salvage finds nothing either, the answer is the diagnostic: the fixed
      header and a bounded prefix of the body. */
  lemma UnparseableDiagnosed(body: string, parse: string -> Parsed)
    requires body != ""
    requires LinePass(SplitLines(body), parse) == Collected("")
    requires Salvage(body) == ""
    ensures ExtractAnswer(body, parse) == Collected(DiagnosticHeader + Snippet(body))
  {
  }

  /** For instance a body that is neither an event stream nor holds the key
      anywhere. */
  lemma KeylessTextDiagnosed(body: string, parse: string -> Parsed)
    requires body != ""
    requires NotAStream(body)
    requires forall k :: 0 <= k <= |body| ==> !KeyAt(body, k)
    ensures ExtractAnswer(body, parse) == Collected(DiagnosticHeader + Snippet(body))
  {
    NoDataLines(SplitLines(body), parse);
    NoKeyNoMatch(body, 0);
    UnparseableDiagnosed(body, parse);
  }
}

=== FILE: manage.dfy ===
/**
 The decision procedures of the management commands
 (claude_cli/commands/manage.py): the rows of the conversation table and
 their order, the confirmation that guards a deletion, and the layout of a
 conversation's history. The `claude_api` client, the console and the date
 formatting are parameters.
 */
module Manage {
  import opened Wrappers
  import opened Text
  import opened Conversations

  // ---------------------------------------------------------------------
  // Python's order on str.

  /** `a <= b` on Python strings: code points compared left to right, a
      proper prefix coming first. */
  predicate LexLe(a: string, b: string)
    decreases |a|
  {
    a == [] || (b != [] && (a[0] < b[0] || (a[0] == b[0] && LexLe(a[1..], b[1..]))))
  }

  lemma {:induction false} LexLeReflexive(a: string)
    ensures LexLe(a, a)
    decreases |a|
  {
    if a != [] {
      LexLeReflexive(a[1..]);
    }
  }

  lemma {:induction false} LexLeTotal(a: string, b: string)
    ensures LexLe(a, b) || LexLe(b, a)
    decreases |a|
  {
    if a != [] && b != [] && a[0] == b[0] {
      LexLeTotal(a[1..], b[1..]);
    }
  }

  lemma {:induction false} LexLeTransitive(a: string, b: string, c: string)
    requires LexLe(a, b) && LexLe(b, c)
    ensures LexLe(a, c)
    decreases |a|
  {
    if a != [] && a[0] == b[0] && b[0] == c[0] {
      LexLeTransitive(a[1..], b[1..], c[1..]);
    }
  }

  lemma {:induction false} LexLeAntisymmetric(a: string, b: string)
    requires LexLe(a, b) && LexLe(b, a)
    ensures a == b
    decreases |a|
  {
    if a != [] && b != [] {
      LexLeAntisymmetric(a[1..], b[1..]);
      assert a == [a[0]] + a[1..] && b == [b[0]] + b[1..];
    }
  }

  // ---------------------------------------------------------------------
  // Newest first: `sorted(conversations, key=..., reverse=True)`.

  /** The sort key, `conv.get('created_at', '')`. */
  function CreatedKey(c: Conversation): string {
    c.createdAt.GetOr("")
  }

  /** No entry's key is above the key of the entry before it. */
  predicate Descending(s: seq<Conversation>) {
    forall i :: 0 < i < |s| ==> LexLe(CreatedKey(s[i]), CreatedKey(s[i - 1]))
  }

  /** `x` put before the first entry of `t` whose key is not above its own. */
  function Insert(x: Conversation, t: seq<Conversation>): (r: seq<Conversation>)
    ensures |r| == |t| + 1
    ensures multiset(r) == multiset(t) + multiset{x}
    ensures r[0] == x || (t != [] && r[0] == t[0])
    ensures Descending(t) ==> Descending(r)
  {
    if t == [] || LexLe(CreatedKey(t[0]), CreatedKey(x)) then
      [x] + t
    else
      var r' := Insert(x, t[1..]);
      var r := [t[0]] + r';
      assert t == [t[0]] + t[1..];
      assert Descending(t) ==> Descending(r) by {
        if Descending(t) {
          LexLeTotal(CreatedKey(t[0]), CreatedKey(x));
          assert Descending(t[1..]) by {
            forall i | 0 < i < |t| - 1 ensures LexLe(CreatedKey(t[1..][i]), CreatedKey(t[1..][i - 1])) {
              assert t[1..][i] == t[i + 1] && t[1..][i - 1] == t[i];
            }
          }
          assert |t| > 1 ==> LexLe(CreatedKey(t[1]), CreatedKey(t[0]));
          forall i | 0 < i < |r| ensures LexLe(CreatedKey(r[i]), CreatedKey(r[i - 1])) {
            if i > 1 {
              assert r[i] == r'[i - 1] && r[i - 1] == r'[i - 2];
            }
          }
        }
      }
      r
  }

  /** The stable descending sort of the table: ties keep the order of the
      listing. */
  function SortNewestFirst(s: seq<Conversation>): (r: seq<Conversation>)
    ensures multiset(r) == multiset(s)
    ensures Descending(r)
  {
    if s == [] then []
    else
      assert s == [s[0]] + s[1..];
      Insert(s[0], SortNewestFirst(s[1..]))
  }

  /** In a descending sequence every later key is at most every earlier one. */
  lemma {:induction false} DescendingOrdersAll(s: seq<Conversation>, i: nat, j: nat)
    requires Descending(s) && i <= j < |s|
    ensures LexLe(CreatedKey(s[j]), CreatedKey(s[i]))
    decreases j - i
  {
    if i == j {
      LexLeReflexive(CreatedKey(s[i]));
    } else {
      DescendingOrdersAll(s, i, j - 1);
      LexLeTransitive(CreatedKey(s[j]), CreatedKey(s[j - 1]), CreatedKey(s[i]));
    }
  }

  /** The entries of `s` whose key is `key`, in their order in `s`. */
  function WithKey(s: seq<Conversation>, key: string): seq<Conversation> {
    if s == [] then []
    else (if CreatedKey(s[0]) == key then [s[0]] else []) + WithKey(s[1..], key)
  }

  lemma {:induction false} InsertWithKey(x: Conversation, t: seq<Conversation>, key: string)
    ensures WithKey(Insert(x, t), key) == WithKey([x] + t, key)
    decreases |t|
  {
    if t == [] || LexLe(CreatedKey(t[0]), CreatedKey(x)) {
    } else {
      LexLeReflexive(CreatedKey(x));
      assert CreatedKey(t[0]) != CreatedKey(x);
      var r' := Insert(x, t[1..]);
      InsertWithKey(x, t[1..], key);
      var r := [t[0]] + r';
      assert Insert(x, t) == r;
      assert r[0] == t[0] && r[1..] == r';
      var xt := [x] + t;
      assert xt[0] == x && xt[1..] == t;
      var xt' := [x] + t[1..];
      assert xt'[0] == x && xt'[1..] == t[1..];
      var px := if CreatedKey(x) == key then [x] else [];
      var p0 := if CreatedKey(t[0]) == key then [t[0]] else [];
      var rest := WithKey(t[1..], key);
      assert WithKey(r, key) == p0 + WithKey(r', key);
      assert WithKey(r', key) == px + rest;
      assert WithKey(xt, key) == px + WithKey(t, key);
      assert WithKey(t, key) == p0 + rest;
      assert px == [] || p0 == [];
    }
  }

  /** The sort is stable: for every key, the entries with that key keep
      their relative order. Together with `SortNewestFirst`'s contract this
      pins the table's order down completely. */
  lemma {:induction false} SortIsStable(s: seq<Conversation>, key: string)
    ensures WithKey(SortNewestFirst(s), key) == WithKey(s, key)
    decreases |s|
  {
    if s != [] {
      SortIsStable(s[1..], key);
      InsertWithKey(s[0], SortNewestFirst(s[1..]), key);
      var xt := [s[0]] + SortNewestFirst(s[1..]);
      assert xt[0] == s[0] && xt[1..] == SortNewestFirst(s[1..]);
    }
  }

  // ---------------------------------------------------------------------
  // The table of `list_conversations`.

  const UnknownId: string := "Unknown"
  const Untitled: string := "Untitled"
  const UnknownDate: string := "Unknown"

  /** One table row: id, name, creation date and message count as shown. */
  datatype Row = Row(id: string, name: string, created: string, messages: string)

  /** `d.get('name', 'Untitled') or 'Untitled'`. */
  function TitleOf(name: Option<string>): (title: string)
    ensures title != ""
    ensures Truthy(name) ==> title == name.value
    ensures !Truthy(name) ==> title == Untitled
  {
    if Truthy(name) then name.value else Untitled
  }

  /** The row of one conversation. `format` stands for parsing the
      timestamp as ISO 8601 (with `Z` read as `+00:00`) and printing it as
      `%Y-%m-%d %H:%M`; `None` where parsing raises, in which case the raw
      timestamp is shown. */
  function RowOf(c: Conversation, format: string -> Option<string>): (row: Row)
    ensures row.id == c.uuid.GetOr(UnknownId)
    ensures row.name == TitleOf(c.name)
    ensures Truthy(c.createdAt) ==> row.created == format(c.createdAt.value).GetOr(c.createdAt.value)
    ensures !Truthy(c.createdAt) ==> row.created == UnknownDate
    ensures row.messages != [] && forall k :: 0 <= k < |row.messages| ==> IsDigit(row.messages[k])
    ensures DigitsValue(row.messages) == |c.messages.GetOr([])|
  {
    var count := |c.messages.GetOr([])|;
    DecimalRoundTrip(count);
    var created :=
      if Truthy(c.createdAt) then format(c.createdAt.value).GetOr(c.createdAt.value) else UnknownDate;
    Row(c.uuid.GetOr(UnknownId), TitleOf(c.name), created, Decimal(count))
  }

  /** What `list_conversations` shows: a notice for an empty list, the
      table, or an error and exit status 1 when the listing raised. */
  datatype ListView = NoConversations | Table(rows: seq<Row>) | ListFailed

  function ListConversations(listing: Listing, format: string -> Option<string>): (v: ListView)
    ensures v.ListFailed? <==> listing.ListingRaised?
    ensures v.NoConversations? <==> listing.Listed? && listing.conversations == []
    ensures v.Table? ==>
      var sorted := SortNewestFirst(listing.conversations);
      && |v.rows| == |listing.conversations|
      && forall i :: 0 <= i < |v.rows| ==> v.rows[i] == RowOf(sorted[i], format)
  {
    match listing
    case ListingRaised => ListFailed
    case Listed(convs) =>
      if convs == [] then NoConversations
      else
        var sorted := SortNewestFirst(convs);
        assert |sorted| == |multiset(sorted)| == |convs|;
        Table(seq(|sorted|, i requires 0 <= i < |sorted| => RowOf(sorted[i], format)))
  }

  /** The table lists every conversation once, newest first: each row comes
      from a distinct listed conversation, and a row above another never has
      an older key. */
  lemma TableNewestFirst(convs: seq<Conversation>, format: string -> Option<string>, i: nat, j: nat)
    requires convs != [] && i < j < |convs|
    ensures var sorted := SortNewestFirst(convs);
      var v := ListConversations(Listed(convs), format);
      && v.Table?
      && multiset(sorted) == multiset(convs)
      && v.rows[i] == RowOf(sorted[i], format) && v.rows[j] == RowOf(sorted[j], format)
      && LexLe(CreatedKey(sorted[j]), CreatedKey(sorted[i]))
  {
    var sorted := SortNewestFirst(convs);
    assert |sorted| == |multiset(sorted)| == |convs|;
    DescendingOrdersAll(sorted, i, j);
  }

  // ---------------------------------------------------------------------
  // `delete_conversation`.

  const Yes: string := "y"

  /** The reply to the prompt confirms when, lower-cased, it is exactly `y`. */
  predicate Confirmed(reply: string) {
    Lower(reply) == Yes
  }

  /** Only `y` and `Y` confirm: no surrounding space, no `yes`. */
  lemma ConfirmedExactly(reply: string)
    ensures Confirmed(reply) <==> reply == "y" || reply == "Y"
  {
    assert Lower("y") == "y";
    assert Lower("Y") == "y" by {
      assert LowerChar('Y') == 'y';
    }
    if Confirmed(reply) {
      assert |reply| == 1;
      assert LowerChar(reply[0]) == 'y';
      assert reply == [reply[0]];
    }
  }

  /** How a delete command ends. */
  datatype DeleteOutcome = Cancelled | Deleted | NotDeleted | DeleteFailed

  /** `attempt` is what the client's delete call returns, `None` where it
      raises (the command then exits with status 1). The call is made only
      after confirmation. */
  function DeleteCommand(reply: string, attempt: Option<bool>): (o: DeleteOutcome)
    ensures o.Cancelled? <==> !Confirmed(reply)
    ensures Confirmed(reply) ==>
      && (o.Deleted? <==> attempt == Some(true))
      && (o.NotDeleted? <==> attempt == Some(false))
      && (o.DeleteFailed? <==> attempt.None?)
  {
    if !Confirmed(reply) then Cancelled
    else
      match attempt
      case None => DeleteFailed
      case Some(ok) => if ok then Deleted else NotDeleted
  }

  // ---------------------------------------------------------------------
  // `view_conversation_history`.

  /** One printed element: a rule of 50 box-drawing characters, a role
      heading, or a message text. */
  datatype ViewItem = Separator | Heading(role: string) | Body(text: string)

  /** What the history view shows: a notice when there is nothing to show,
      the title and items (with `failed` when a message could not be read,
      which exits with status 1), or an error when the call raised. */
  datatype HistoryView = NoMessages | Viewed(title: string, items: seq<ViewItem>, failed: bool) | ViewFailed

  /** The items of one message; every message but the first is preceded by
      a separator. */
  function MessageItems(m: ChatMessage, first: bool): seq<ViewItem>
    requires Readable(m)
  {
    (if first then [] else [Separator]) + [Heading(Role(m)), Body(m.text.value)]
  }

  function Items(ms: seq<ChatMessage>, first: bool): seq<ViewItem>
    requires forall k :: 0 <= k < |ms| ==> Readable(ms[k])
  {
    if ms == [] then [] else MessageItems(ms[0], first) + Items(ms[1..], false)
  }

  /** How many leading messages can be read. */
  function ReadableCount(ms: seq<ChatMessage>): (n: nat)
    ensures n <= |ms|
    ensures forall k :: 0 <= k < n ==> Readable(ms[k])
    ensures n < |ms| ==> !Readable(ms[n])
  {
    if ms == [] || !Readable(ms[0]) then 0 else 1 + ReadableCount(ms[1..])
  }

  function ViewHistory(reply: HistoryReply): (v: HistoryView)
    ensures v.ViewFailed? <==> reply.HistoryRaised?
    ensures v.NoMessages? <==>
      reply.Fetched? && (reply.history.messages.None? || reply.history.messages.value == [])
    ensures v.Viewed? ==>
      var ms := reply.history.messages.value;
      && v.title == TitleOf(reply.history.name)
      && (v.failed <==> exists k :: 0 <= k < |ms| && !Readable(ms[k]))
  {
    match reply
    case HistoryRaised => ViewFailed
    case Fetched(history) =>
      match history.messages
      case None => NoMessages
      case Some(ms) =>
        if ms == [] then NoMessages
        else
          var n := ReadableCount(ms);
          Viewed(TitleOf(history.name), Items(ms[..n], true), n < |ms|)
  }

  /** Past the first message, each message takes three items: separator,
      heading, text. */
  lemma {:induction false} LaterItems(ms: seq<ChatMessage>)
    requires forall k :: 0 <= k < |ms| ==> Readable(ms[k])
    ensures |Items(ms, false)| == 3 * |ms|
    ensures forall k :: 0 <= k < 3 * |ms| ==> (Items(ms, false)[k] == Separator <==> k % 3 == 0)
    ensures forall i :: 0 <= i < |ms| ==>
      Items(ms, false)[3 * i + 1] == Heading(Role(ms[i])) && Items(ms, false)[3 * i + 2] == Body(ms[i].text.value)
    decreases |ms|
  {
    if ms != [] {
      LaterItems(ms[1..]);
      var rest := Items(ms[1..], false);
      var items := Items(ms, false);
      assert items == [Separator, Heading(Role(ms[0])), Body(ms[0].text.value)] + rest;
      forall k | 3 <= k < 3 * |ms| ensures (items[k] == Separator <==> k % 3 == 0) {
        assert items[k] == rest[k - 3];
      }
      forall i | 1 <= i < |ms|
        ensures items[3 * i + 1] == Heading(Role(ms[i])) && items[3 * i + 2] == Body(ms[i].text.value)
      {
        assert items[3 * i + 1] == rest[3 * (i - 1) + 1];
        assert items[3 * i + 2] == rest[3 * (i - 1) + 2];
        assert ms[1..][i - 1] == ms[i];
      }
    }
  }

  /** The items of n readable messages, the first of them unseparated:
      3n - 1 items, a separator between consecutive messages and nowhere
      else, and each message's heading naming its role. */
  lemma FirstItems(ms: seq<ChatMessage>)
    requires ms != []
    requires forall k :: 0 <= k < |ms| ==> Readable(ms[k])
    ensures var items := Items(ms, true);
      && |items| == 3 * |ms| - 1
      && (forall k :: 0 <= k < |items| ==> (items[k] == Separator <==> k % 3 == 2))
      && (forall i :: 0 <= i < |ms| ==> items[3 * i] == Heading(Role(ms[i])))
  {
    var items := Items(ms, true);
    var rest := Items(ms[1..], false);
    LaterItems(ms[1..]);
    assert items == [Heading(Role(ms[0])), Body(ms[0].text.value)] + rest;
    forall k | 2 <= k < |items| ensures (items[k] == Separator <==> k % 3 == 2) {
      assert items[k] == rest[k - 2];
    }
    forall i | 1 <= i < |ms| ensures items[3 * i] == Heading(Role(ms[i])) {
      assert items[3 * i] == rest[3 * (i - 1) + 1];
      assert ms[1..][i - 1] == ms[i];
    }
  }

  /** A history whose first n messages can be read (n > 0) shows 3n - 1
      items, a separator between consecutive messages and nowhere else, each
      heading naming its message's role; the view fails exactly when a
      message follows those n, which is where printing stopped. */
  lemma SeparatorsBetween(history: History)
    requires history.messages.Some? && history.messages.value != []
    requires Readable(history.messages.value[0])
    ensures var v := ViewHistory(Fetched(history));
      var ms := history.messages.value;
      var n := ReadableCount(ms);
      && v.Viewed? && (v.failed <==> n < |ms|)
      && |v.items| == 3 * n - 1
      && (forall k :: 0 <= k < |v.items| ==> (v.items[k] == Separator <==> k % 3 == 2))
      && (forall i :: 0 <= i < n ==> v.items[3 * i] == Heading(Role(ms[i])))
  {
    var ms := history.messages.value;
    var n := ReadableCount(ms);
    assert n > 0;
    var shown := ms[..n];
    assert forall k :: 0 <= k < n ==> shown[k] == ms[k];
    FirstItems(shown);
  }
}

=== FILE: pattern.dfy ===
/**
 A scanner for the regular expression `"completion"\s*:\s*"([^"]*)"` that the
 client uses to salvage completion text from data that is not valid JSON
 (claude_cli/utils/client.py, `re.search` on one line and `re.findall` on the
 whole body).

 The expression never needs to backtrack: `\s*` is always followed by a
 character that is not whitespace (`:` or `"`), and `[^"]*` is followed by
 `"`. So at each start position there is at most one match, found by
 consuming greedily.
 */
module CompletionPattern {
  import opened Wrappers
  import opened Text

  /** The quoted key the expression begins with. */
  const Key: string := "\"completion\""

  /** One match: the whitespace the two `\s*` consumed, the captured group and
      the index just past the closing quote. */
  datatype Match = Match(before: string, after: string, value: string, end: nat)

  /** The text a match covers: `"completion"`, whitespace, `:`, whitespace and
      the quoted value. */
  function Field(before: string, after: string, value: string): string {
    Key + before + ":" + after + "\"" + value + "\""
  }

  /** The key occurs in `s` starting at index `k`. */
  predicate KeyAt(s: string, k: nat) {
    k + |Key| <= |s| && s[k..k + |Key|] == Key
  }

  /** The first index at or after `i` that is not whitespace, or `|s|`. */
  function SkipSpace(s: string, i: nat): (j: nat)
    requires i <= |s|
    ensures i <= j <= |s|
    ensures forall x :: i <= x < j ==> IsSpace(s[x])
    ensures j < |s| ==> !IsSpace(s[j])
    decreases |s| - i
  {
    if i < |s| && IsSpace(s[i]) then SkipSpace(s, i + 1) else i
  }

  /** The first index at or after `i` holding a double quote, or `|s|`. */
  function NextQuote(s: string, i: nat): (j: nat)
    requires i <= |s|
    ensures i <= j <= |s|
    ensures forall x :: i <= x < j ==> s[x] != '"'
    ensures j < |s| ==> s[j] == '"'
    decreases |s| - i
  {
    if i < |s| && s[i] != '"' then NextQuote(s, i + 1) else i
  }

  /** The match starting exactly at index `i`, if there is one: it ends past
      `i` and captures a value free of quotes (`MatchAtSound` says what it
      covers). The scan runs in stages: the key, then `AfterKey`,
      `AfterColon` and `Close`. */
  function MatchAt(s: string, i: nat): (m: Option<Match>)
    requires i <= |s|
    ensures m.Some? ==> i < m.value.end <= |s| && '"' !in m.value.value
  {
    if KeyAt(s, i) then AfterKey(s, i, SkipSpace(s, i + |Key|)) else None
  }

  /** Past the key and the whitespace after it, at `j`: the colon must follow. */
  function AfterKey(s: string, i: nat, j: nat): (m: Option<Match>)
    requires i + |Key| <= j <= |s|
    ensures m.Some? ==> j < m.value.end <= |s| && '"' !in m.value.value
  {
    if j < |s| && s[j] == ':' then AfterColon(s, i, j, SkipSpace(s, j + 1)) else None
  }

  /** Past the colon and the whitespace after it, at `k`: the opening quote
      must follow. */
  function AfterColon(s: string, i: nat, j: nat, k: nat): (m: Option<Match>)
    requires i + |Key| <= j < k <= |s|
    ensures m.Some? ==> k < m.value.end <= |s| && '"' !in m.value.value
  {
    if k < |s| && s[k] == '"' then Close(s, i, j, k, NextQuote(s, k + 1)) else None
  }

  /** At the first quote `e` after the opening one: the match closes there,
      unless the text ran out first. */
  function Close(s: string, i: nat, j: nat, k: nat, e: nat): (m: Option<Match>)
    requires i + |Key| <= j < k < e <= |s|
    requires forall x :: k < x < e ==> s[x] != '"'
    ensures m.Some? ==> e < m.value.end <= |s| && '"' !in m.value.value
  {
    if e < |s| then Some(Match(s[i + |Key|..j], s[j + 1..k], s[k + 1..e], e + 1)) else None
  }

  /** Soundness: a match is a well-formed field, with whitespace where the
      expression allows it and a value free of quotes. */
  lemma MatchAtSound(s: string, i: nat)
    requires i <= |s|
    ensures var m := MatchAt(s, i);
      m.Some? ==>
        && s[i..m.value.end] == Field(m.value.before, m.value.after, m.value.value)
        && AllSpace(m.value.before) && AllSpace(m.value.after)
  {
    if KeyAt(s, i) {
      AfterKeySound(s, i, SkipSpace(s, i + |Key|));
    }
  }

  /** The field facts that `MatchAtSound` promises for a match `m` at `i`. */
  predicate Covers(s: string, i: nat, m: Match) {
    && i < m.end <= |s|
    && s[i..m.end] == Field(m.before, m.after, m.value)
    && AllSpace(m.before) && AllSpace(m.after)
  }

  lemma AfterKeySound(s: string, i: nat, j: nat)
    requires i + |Key| <= j <= |s| && KeyAt(s, i)
    requires forall x :: i + |Key| <= x < j ==> IsSpace(s[x])
    ensures AfterKey(s, i, j).Some? ==> Covers(s, i, AfterKey(s, i, j).value)
  {
    if j < |s| && s[j] == ':' {
      AfterColonSound(s, i, j, SkipSpace(s, j + 1));
    }
  }

  lemma AfterColonSound(s: string, i: nat, j: nat, k: nat)
    requires i + |Key| <= j < k <= |s| && KeyAt(s, i) && s[j] == ':'
    requires forall x :: i + |Key| <= x < j ==> IsSpace(s[x])
    requires forall x :: j < x < k ==> IsSpace(s[x])
    ensures AfterColon(s, i, j, k).Some? ==> Covers(s, i, AfterColon(s, i, j, k).value)
  {
    if k < |s| && s[k] == '"' {
      var e := NextQuote(s, k + 1);
      if e < |s| {
        FieldSlices(s, i, j, k, e);
        assert AllSpace(s[i + |Key|..j]) && AllSpace(s[j + 1..k]);
      }
    }
  }

  /** The pieces a match consumes, laid side by side, form the field. */
  lemma FieldSlices(s: string, i: nat, j: nat, k: nat, e: nat)
    requires i + |Key| <= j < k < e < |s|
    requires s[i..i + |Key|] == Key && s[j] == ':' && s[k] == '"' && s[e] == '"'
    ensures s[i..e + 1] == Field(s[i + |Key|..j], s[j + 1..k], s[k + 1..e])
  {
    Joined(s, i, i + |Key|, j, k, e);
  }

  /** `s[i..e + 1]` cut at a colon `j` and quotes `k` and `e`. */
  lemma Joined(s: string, i: nat, j0: nat, j: nat, k: nat, e: nat)
    requires i <= j0 <= j < k < e < |s|
    requires s[j] == ':' && s[k] == '"' && s[e] == '"'
    ensures s[i..e + 1] == s[i..j0] + s[j0..j] + ":" + s[j + 1..k] + "\"" + s[k + 1..e] + "\""
  {
    assert s[j..j + 1] == ":" && s[k..k + 1] == "\"" && s[e..e + 1] == "\"";
    Glue(s, i, j0, j);
    var p1 := s[i..j0] + s[j0..j];
    assert s[i..j] == p1;
    Glue(s, i, j, j + 1);
    var p2 := p1 + ":";
    assert s[i..j + 1] == p2;
    Glue(s, i, j + 1, k);
    var p3 := p2 + s[j + 1..k];
    assert s[i..k] == p3;
    Glue(s, i, k, k + 1);
    var p4 := p3 + "\"";
    assert s[i..k + 1] == p4;
    Glue(s, i, k + 1, e);
    var p5 := p4 + s[k + 1..e];
    assert s[i..e] == p5;
    Glue(s, i, e, e + 1);
  }

  lemma Glue(s: string, a: nat, b: nat, c: nat)
    requires a <= b <= c <= |s|
    ensures s[a..c] == s[a..b] + s[b..c]
  {
  }

  /** Where each piece of a field sits. */
  lemma FieldLayout(before: string, after: string, value: string)
    ensures var f := Field(before, after, value);
      var j := |Key| + |before|;
      var k := j + 1 + |after|;
      var e := k + 1 + |value|;
      && |f| == e + 1
      && f[..|Key|] == Key && f[|Key|..j] == before && f[j] == ':'
      && f[j + 1..k] == after && f[k] == '"' && f[k + 1..e] == value && f[e] == '"'
  {
    var a1 := Key + before;
    var a2 := a1 + ":";
    var a3 := a2 + after;
    var a4 := a3 + "\"";
    var a5 := a4 + value;
    var f := a5 + "\"";
    assert f == Field(before, after, value);
    assert f[..|a5|] == a5 && a5[..|a4|] == a4 && a4[..|a3|] == a3;
    assert a3[..|a2|] == a2 && a2[..|a1|] == a1;
    assert f[..|a1|] == a1;
    assert a1[..|Key|] == Key && a1[|Key|..] == before;
    assert f[|a2|..|a3|] == a3[|a2|..] == after;
    assert f[|a4|..|a5|] == a5[|a4|..] == value;
  }

  /** Completeness: wherever a well-formed field occurs, `MatchAt` finds it
      at its start and captures exactly its value, whatever precedes or
      follows it. */
  lemma FieldMatchesAt(s: string, i: nat, before: string, after: string, value: string)
    requires AllSpace(before) && AllSpace(after) && '"' !in value
    requires i + |Field(before, after, value)| <= |s|
    requires s[i..i + |Field(before, after, value)|] == Field(before, after, value)
    ensures MatchAt(s, i) == Some(Match(before, after, value, i + |Field(before, after, value)|))
  {
    FieldPieces(s, i, before, after, value);
    var j := i + |Key| + |before|;
    var k := j + 1 + |after|;
    var e := k + 1 + |value|;
    MatchAtPieces(s, i, j, k, e);
  }

  /** Where the pieces of a field sit when the field occurs in `s` at `i`. */
  lemma FieldPieces(s: string, i: nat, before: string, after: string, value: string)
    requires i + |Field(before, after, value)| <= |s|
    requires s[i..i + |Field(before, after, value)|] == Field(before, after, value)
    ensures var j := i + |Key| + |before|;
      var k := j + 1 + |after|;
      var e := k + 1 + |value|;
      && e < |s| && i + |Field(before, after, value)| == e + 1
      && s[i..i + |Key|] == Key && s[i + |Key|..j] == before && s[j] == ':'
      && s[j + 1..k] == after && s[k] == '"' && s[k + 1..e] == value && s[e] == '"'
  {
    FieldLayout(before, after, value);
    PiecesAt(s, i, Field(before, after, value), before, after, value);
  }

  /** `FieldPieces` for any text `f` laid out like a field. */
  lemma PiecesAt(s: string, i: nat, f: string, before: string, after: string, value: string)
    requires i + |f| <= |s| && s[i..i + |f|] == f
    requires var j := |Key| + |before|;
      var k := j + 1 + |after|;
      var e := k + 1 + |value|;
      && |f| == e + 1
      && f[..|Key|] == Key && f[|Key|..j] == before && f[j] == ':'
      && f[j + 1..k] == after && f[k] == '"' && f[k + 1..e] == value && f[e] == '"'
    ensures var j := i + |Key| + |before|;
      var k := j + 1 + |after|;
      var e := k + 1 + |value|;
      && e < |s| && i + |f| == e + 1
      && s[i..i + |Key|] == Key && s[i + |Key|..j] == before && s[j] == ':'
      && s[j + 1..k] == after && s[k] == '"' && s[k + 1..e] == value && s[e] == '"'
  {
    var j0 := |Key| + |before|;
    var k0 := j0 + 1 + |after|;
    var e0 := k0 + 1 + |value|;
    Within(s, i, f, 0, |Key|);
    assert f[0..|Key|] == f[..|Key|];
    Within(s, i, f, |Key|, j0);
    Within(s, i, f, j0 + 1, k0);
    Within(s, i, f, k0 + 1, e0);
  }

  lemma Within(s: string, i: nat, f: string, a: nat, b: nat)
    requires a <= b < |f| && i + |f| <= |s| && s[i..i + |f|] == f
    ensures s[i + a..i + b] == f[a..b] && s[i + b] == f[b]
  {
    assert forall x :: i + a <= x < i + b ==> s[x] == f[x - i];
    assert s[i + a..i + b] == f[a..b];
  }

  /** `MatchAt` accepts any layout of key, whitespace, colon, whitespace and
      quoted value it meets. */
  lemma MatchAtPieces(s: string, i: nat, j: nat, k: nat, e: nat)
    requires i + |Key| <= j < k < e < |s|
    requires s[i..i + |Key|] == Key && AllSpace(s[i + |Key|..j]) && s[j] == ':'
    requires AllSpace(s[j + 1..k]) && s[k] == '"'
    requires '"' !in s[k + 1..e] && s[e] == '"'
    ensures MatchAt(s, i) == Some(Match(s[i + |Key|..j], s[j + 1..k], s[k + 1..e], e + 1))
  {
    assert KeyAt(s, i);
    SkipSpaceOver(s, i + |Key|, j);
    AfterKeyPieces(s, i, j, k, e);
  }

  lemma AfterKeyPieces(s: string, i: nat, j: nat, k: nat, e: nat)
    requires i + |Key| <= j < k < e < |s|
    requires s[j] == ':' && AllSpace(s[j + 1..k]) && s[k] == '"'
    requires '"' !in s[k + 1..e] && s[e] == '"'
    ensures AfterKey(s, i, j) == Some(Match(s[i + |Key|..j], s[j + 1..k], s[k + 1..e], e + 1))
  {
    SkipSpaceOver(s, j + 1, k);
    NextQuoteOver(s, k + 1, e);
    assert AfterColon(s, i, j, k) == Close(s, i, j, k, e);
  }

  /** `SkipSpace` stops at the first non-whitespace character: this follows
      from its contract alone. */
  lemma SkipSpaceOver(s: string, i: nat, j: nat)
    requires i <= j < |s|
    requires AllSpace(s[i..j]) && !IsSpace(s[j])
    ensures SkipSpace(s, i) == j
  {
    forall x | i <= x < j ensures IsSpace(s[x]) {
      assert s[x] == s[i..j][x - i];
    }
  }

  /** `NextQuote` stops at the first quote: this follows from its contract
      alone. */
  lemma NextQuoteOver(s: string, i: nat, j: nat)
    requires i <= j < |s|
    requires '"' !in s[i..j] && s[j] == '"'
    ensures NextQuote(s, i) == j
  {
    forall x | i <= x < j ensures s[x] != '"' {
      assert s[x] == s[i..j][x - i];
    }
  }

  // ---------------------------------------------------------------------
  // `re.search` and `re.findall`.

  /** `re.search(...)` from index `i`: the captured group of the leftmost match. */
  function SearchFrom(s: string, i: nat): Option<string>
    requires i <= |s|
    decreases |s| - i
  {
    match MatchAt(s, i)
    case Some(m) => Some(m.value)
    case None => if i == |s| then None else SearchFrom(s, i + 1)
  }

  /** `re.findall(...)` from index `i`: the captured groups of the leftmost
      non-overlapping matches, scanning on past the end of each match. */
  function FindAllFrom(s: string, i: nat): (found: seq<string>)
    requires i <= |s|
    ensures forall k :: 0 <= k < |found| ==> '"' !in found[k]
    decreases |s| - i
  {
    match MatchAt(s, i)
    case Some(m) => [m.value] + FindAllFrom(s, m.end)
    case None => if i == |s| then [] else FindAllFrom(s, i + 1)
  }

  function Search(s: string): Option<string> {
    SearchFrom(s, 0)
  }

  function FindAll(s: string): seq<string> {
    FindAllFrom(s, 0)
  }

  /** `re.search` and `re.findall` agree: the search finds something exactly
      when `findall` does, and what it finds is the first item `findall`
      lists. */
  lemma {:induction false} SearchIsFirstFound(s: string, i: nat)
    requires i <= |s|
    ensures SearchFrom(s, i).None? <==> FindAllFrom(s, i) == []
    ensures SearchFrom(s, i).Some? ==> SearchFrom(s, i).value == FindAllFrom(s, i)[0]
    decreases |s| - i
  {
    if MatchAt(s, i).None? && i < |s| {
      SearchIsFirstFound(s, i + 1);
    }
  }

  /** `re.findall` lists every well-formed field it reaches: when nothing
      matches in `[i, j)` (no key starts there, or each key there is
      followed by something other than a quoted string) and a field starts
      at `j`, the scan from `i` lists
      that field's value first and then resumes just past the field. Applied
      field after field, this lists all of them, in order. */
  lemma FindAllStep(s: string, i: nat, j: nat, before: string, after: string, value: string)
    requires AllSpace(before) && AllSpace(after) && '"' !in value
    requires i <= j && j + |Field(before, after, value)| <= |s|
    requires s[j..j + |Field(before, after, value)|] == Field(before, after, value)
    requires forall k :: i <= k < j ==> MatchAt(s, k).None?
    ensures FindAllFrom(s, i) == [value] + FindAllFrom(s, j + |Field(before, after, value)|)
  {
    NothingMatchesBetween(s, i, j);
    FieldMatchesAt(s, j, before, after, value);
    FoundAt(s, j, value);
  }

  /** A match at `j` is listed first by the scan from `j`. */
  lemma FoundAt(s: string, j: nat, value: string)
    requires j <= |s| && MatchAt(s, j).Some? && MatchAt(s, j).value.value == value
    ensures FindAllFrom(s, j) == [value] + FindAllFrom(s, MatchAt(s, j).value.end)
  {
  }

  /** Positions where nothing matches are skipped: the scan from `i` lists
      what the scan from `j` lists. */
  lemma {:induction false} NothingMatchesBetween(s: string, i: nat, j: nat)
    requires i <= j <= |s|
    requires forall k :: i <= k < j ==> MatchAt(s, k).None?
    ensures FindAllFrom(s, i) == FindAllFrom(s, j)
    decreases j - i
  {
    if i < j {
      NothingMatchesBetween(s, i + 1, j);
    }
  }

  /** A string without the key anywhere from `i` on holds no match there. */
  lemma {:induction false} NoKeyNoMatch(s: string, i: nat)
    requires i <= |s|
    requires forall k :: i <= k <= |s| ==> !KeyAt(s, k)
    ensures FindAllFrom(s, i) == []
    decreases |s| - i
  {
    if i < |s| {
      NoKeyNoMatch(s, i + 1);
    }
  }

  /** `re.search` on a string that starts with a well-formed field captures
      that field's value. */
  lemma SearchField(before: string, after: string, value: string, rest: string)
    requires AllSpace(before) && AllSpace(after) && '"' !in value
    ensures Search(Field(before, after, value) + rest) == Some(value)
  {
    var f := Field(before, after, value);
    assert (f + rest)[0..|f|] == f;
    FieldMatchesAt(f + rest, 0, before, after, value);
  }

  /** `re.search` on a string whose first match is a well-formed field
      captures that field's value, whatever precedes it (keys not followed
      by a quoted string included). */
  lemma SearchFieldAt(s: string, j: nat, before: string, after: string, value: string)
    requires AllSpace(before) && AllSpace(after) && '"' !in value
    requires j + |Field(before, after, value)| <= |s|
    requires s[j..j + |Field(before, after, value)|] == Field(before, after, value)
    requires forall k :: 0 <= k < j ==> MatchAt(s, k).None?
    ensures Search(s) == Some(value)
  {
    FindAllStep(s, 0, j, before, after, value);
    SearchIsFirstFound(s, 0);
  }

  /** The same for a stream line: `data:`, text in which nothing matches,
      then a well-formed field and anything after it. */
  lemma SearchFieldInDataLine(prefix: string, before: string, after: string, value: string, rest: string)
    requires AllSpace(before) && AllSpace(after) && '"' !in value
    requires var s := "data:" + prefix + Field(before, after, value) + rest;
      forall k :: 0 <= k < 5 + |prefix| ==> MatchAt(s, k).None?
    ensures Search("data:" + prefix + Field(before, after, value) + rest) == Some(value)
  {
    var p := "data:" + prefix;
    var f := Field(before, after, value);
    var s := p + f + rest;
    assert s[|p|..|p| + |f|] == f;
    SearchFieldAt(s, |p|, before, after, value);
  }
}

=== FILE: query.dfy ===
/**
 `send_query` (claude_cli/commands/query.py): the one-off query. It creates
 a conversation when no id is given, otherwise requires the id to be
 listed, then sends the prompt once and returns the response. The
 `claude_api` client is a parameter.
 */
module Query {
  import opened Wrappers
  import opened Text
  import opened Conversations
  import Chat

  /** The one `send_message` call: prompt, conversation and attached path. */
  datatype Call = Call(prompt: string, conversation: string, attachment: Option<string>)

  /** How the command ends: returning the response, exiting with status 1
      after printing the error, or with an exception that escapes it (only
      `create_new_chat` runs outside a handler). */
  datatype QueryExit = Returned(response: string) | ExitedWithError | Uncaught

  /** The call made, if any, and how the command ended. */
  datatype QueryRun = QueryRun(call: Option<Call>, exit: QueryExit)

  /** Whether an explicit id passes the existence check: `None` when the
      check itself fails (the listing or the id comprehension raised). */
  function Verify(listing: Listing, id: string): (passed: Option<bool>)
    ensures passed.Some? <==> listing.Listed? && AllIdentified(listing.conversations)
    ensures passed.Some? ==> (passed.value <==> Known(listing.conversations, id))
  {
    match listing
    case ListingRaised => None
    case Listed(convs) => Lookup(convs, id)
  }

  /** `created` is `create_new_chat()['uuid']` and `send` what
      `send_message` returns for a call, `None` where either raises. The
      existence check is blocking: an unknown id, or a check that raised,
      exits before anything is sent. */
  function SendQuery(prompt: string, conversationId: Option<string>, attachment: Option<string>,
                     created: Option<string>, listing: Listing, send: Call -> Option<string>): (run: QueryRun)
    ensures !Truthy(conversationId) ==> (run.call.Some? <==> created.Some?)
    ensures !Truthy(conversationId) && created.None? ==> run.exit == Uncaught
    ensures Truthy(conversationId) ==>
      (run.call.Some? <==> Verify(listing, conversationId.value) == Some(true))
    ensures Truthy(conversationId) && run.call.None? ==> run.exit == ExitedWithError
    ensures run.call.Some? ==>
      var c := run.call.value;
      && c.prompt == prompt
      && c.conversation == (if Truthy(conversationId) then conversationId.value else created.value)
      && c.attachment == (if Truthy(attachment) then attachment else None)
      && (run.exit.Returned? <==> send(c).Some?)
      && (run.exit.Returned? ==> run.exit.response == send(c).value)
      && (!run.exit.Returned? ==> run.exit == ExitedWithError)
  {
    var target :=
      if !Truthy(conversationId) then
        match created
        case None => None
        case Some(id) => Some(id)
      else if Verify(listing, conversationId.value) == Some(true) then Some(conversationId.value)
      else None;
    match target
    case None => QueryRun(None, if Truthy(conversationId) then ExitedWithError else Uncaught)
    case Some(id) =>
      var c := Call(prompt, id, if Truthy(attachment) then attachment else None);
      match send(c)
      case Some(response) => QueryRun(Some(c), Returned(response))
      case None => QueryRun(Some(c), ExitedWithError)
  }

  /** An id that is not listed is never sent to, whatever the prompt. */
  lemma UnknownIdNeverSends(prompt: string, id: string, attachment: Option<string>, created: Option<string>,
                            convs: seq<Conversation>, send: Call -> Option<string>)
    requires id != "" && !Known(convs, id)
    ensures SendQuery(prompt, Some(id), attachment, created, Listed(convs), send) == QueryRun(None, ExitedWithError)
  {
  }

  /** An empty attachment is no attachment. */
  lemma EmptyAttachmentDropped(prompt: string, conversationId: Option<string>, created: Option<string>,
                               listing: Listing, send: Call -> Option<string>)
    ensures SendQuery(prompt, conversationId, Some(""), created, listing, send)
         == SendQuery(prompt, conversationId, None, created, listing, send)
  {
  }

  /** The query and the interactive chat apply the same existence check to
      an explicit id: the query sends exactly when the chat would continue
      with that id. Where they differ is failure: the chat lets a failed
      check escape, the query exits with status 1. */
  lemma SameGateAsChat(prompt: string, id: string, attachment: Option<string>, configDefault: Option<string>,
                       created: Option<string>, listing: Listing, send: Call -> Option<string>)
    requires id != ""
    ensures var run := SendQuery(prompt, Some(id), attachment, created, listing, send);
      var chosen := Chat.SelectConversation(Some(id), false, configDefault, created, listing);
      && (run.call.Some? <==> chosen.Continue?)
      && (chosen.Crashed? ==> run == QueryRun(None, ExitedWithError))
      && (chosen.NotFound? ==> run == QueryRun(None, ExitedWithError))
  {
  }
}

=== FILE: text.dfy ===
/**
 String primitives with Python semantics that the client and the command
 modules rely on: whitespace stripping, prefix/suffix tests, ASCII
 lower-casing, clamped slicing, splitting on a newline character and the
 decimal rendering of a non-negative integer.
 */
module Text {
  import opened Wrappers

  /** Python truthiness of an optional string: present and not empty. */
  predicate Truthy(s: Option<string>) {
    s.Some? && s.value != ""
  }

  /** Python's notion of whitespace (`str.isspace`, `str.strip()` and the
      regular-expression class `\s` on str patterns all use it). */
  predicate IsSpace(c: char) {
    || ('\t' <= c <= '\r') || ('\U{001C}' <= c <= ' ')
    || c == '\U{0085}' || c == '\U{00A0}' || c == '\U{1680}'
    || ('\U{2000}' <= c <= '\U{200A}') || c == '\U{2028}' || c == '\U{2029}'
    || c == '\U{202F}' || c == '\U{205F}' || c == '\U{3000}'
  }

  predicate AllSpace(s: string) {
    forall i :: 0 <= i < |s| ==> IsSpace(s[i])
  }

  /** Neither end of `s` is whitespace: what `str.strip()` leaves behind. */
  predicate Trimmed(s: string) {
    s == [] || (!IsSpace(s[0]) && !IsSpace(s[|s| - 1]))
  }

  /** `str.lstrip()`: drops the longest all-whitespace prefix. */
  function StripLeft(s: string): (r: string)
    ensures |r| <= |s|
    ensures r == [] || !IsSpace(r[0])
  {
    if |s| > 0 && IsSpace(s[0]) then StripLeft(s[1..]) else s
  }

  /** `str.rstrip()`: drops the longest all-whitespace suffix. */
  function StripRight(s: string): (r: string)
    ensures |r| <= |s|
    ensures r != [] ==> r[0] == s[0]
    ensures r == [] || !IsSpace(r[|r| - 1])
  {
    if |s| > 0 && IsSpace(s[|s| - 1]) then StripRight(s[..|s| - 1]) else s
  }

  /** `str.strip()` with no argument. */
  function Strip(s: string): (r: string)
    ensures |r| <= |s|
    ensures Trimmed(r)
  {
    StripRight(StripLeft(s))
  }

  /** Stripping is the inverse of padding: whatever whitespace surrounds a
      trimmed string, `Strip` recovers exactly that string. */
  lemma StripPadded(pre: string, t: string, post: string)
    requires AllSpace(pre) && AllSpace(post) && Trimmed(t)
    ensures Strip(pre + t + post) == t
  {
    var s := pre + t + post;
    if t == [] {
      assert s == pre + post;
      StripLeftAllSpace(s);
    } else {
      StripLeftPadded(pre, t + post);
      assert s == pre + (t + post);
      StripRightPadded(t, post);
    }
  }

  lemma {:induction false} StripLeftAllSpace(s: string)
    requires AllSpace(s)
    ensures StripLeft(s) == []
  {
    if s != [] {
      StripLeftAllSpace(s[1..]);
    }
  }

  lemma {:induction false} StripLeftPadded(pre: string, t: string)
    requires AllSpace(pre)
    requires t == [] || !IsSpace(t[0])
    ensures StripLeft(pre + t) == t
    decreases |pre|
  {
    if pre == [] {
      assert pre + t == t;
    } else {
      assert (pre + t)[1..] == pre[1..] + t;
      StripLeftPadded(pre[1..], t);
    }
  }

  lemma {:induction false} StripRightPadded(t: string, post: string)
    requires AllSpace(post)
    requires t == [] || !IsSpace(t[|t| - 1])
    ensures StripRight(t + post) == t
    decreases |post|
  {
    if post == [] {
      assert t + post == t;
    } else {
      var s := t + post;
      assert s[..|s| - 1] == t + post[..|post| - 1];
      StripRightPadded(t, post[..|post| - 1]);
    }
  }

  /** Stripping is idempotent. */
  lemma StripIdempotent(s: string)
    ensures Strip(Strip(s)) == Strip(s)
  {
    var t := Strip(s);
    StripPadded([], t, []);
    assert [] + t + [] == t;
  }

  predicate StartsWith(s: string, prefix: string) {
    |prefix| <= |s| && s[..|prefix|] == prefix
  }

  predicate EndsWith(s: string, suffix: string) {
    |suffix| <= |s| && s[|s| - |suffix|..] == suffix
  }

  /** Python's `s[n:]` for a non-negative `n`: empty once `n` passes the end. */
  function Drop(s: string, n: nat): string {
    if n <= |s| then s[n..] else []
  }

  /** Python's `s[:n]` for a non-negative `n`: the whole string once `n`
      passes the end. */
  function Take(s: string, n: nat): string {
    if n <= |s| then s[..n] else s
  }

  /** Python's `s[a:b]` for non-negative bounds: both ends are clamped. */
  function Slice(s: string, a: nat, b: nat): string {
    var hi := if b <= |s| then b else |s|;
    var lo := if a <= hi then a else hi;
    s[lo..hi]
  }

  const Ellipsis: string := "..."

  /** `s[:limit] + ('...' if len(s) > limit else '')`: the whole string when
      it fits, otherwise its first `limit` characters and an ellipsis. */
  function Abbreviate(s: string, limit: nat): (r: string)
    ensures |r| <= limit + |Ellipsis|
    ensures |s| <= limit ==> r == s
    ensures |s| > limit ==>
      |r| == limit + |Ellipsis| && r[..limit] == s[..limit] && r[limit..] == Ellipsis
  {
    Take(s, limit) + (if |s| > limit then Ellipsis else "")
  }

  function LowerChar(c: char): char {
    if 'A' <= c <= 'Z' then (c as int + 32) as char else c
  }

  /** `str.lower()` on the ASCII letters. */
  function Lower(s: string): (r: string)
    ensures |r| == |s|
    ensures forall i :: 0 <= i < |s| ==> r[i] == LowerChar(s[i])
  {
    if s == [] then [] else [LowerChar(s[0])] + Lower(s[1..])
  }

  // ---------------------------------------------------------------------
  // Splitting on a newline (Python's `str.split('\n')`).

  /** The index of the first newline at or after `from`, or `|s|`. */
  function NextNewline(s: string, from: nat): (i: nat)
    requires from <= |s|
    ensures from <= i <= |s|
    ensures forall k :: from <= k < i ==> s[k] != '\n'
    ensures i < |s| ==> s[i] == '\n'
    decreases |s| - from
  {
    if from == |s| || s[from] == '\n' then from else NextNewline(s, from + 1)
  }

  /** `s.split('\n')`: always at least one piece, none holds a newline. */
  function SplitLines(s: string): (lines: seq<string>)
    ensures |lines| >= 1
    ensures forall k :: 0 <= k < |lines| ==> '\n' !in lines[k]
    decreases |s|
  {
    var i := NextNewline(s, 0);
    if i == |s| then [s] else [s[..i]] + SplitLines(s[i + 1..])
  }

  /** `'\n'.join(lines)`. */
  function JoinLines(lines: seq<string>): string
    requires |lines| >= 1
  {
    if |lines| == 1 then lines[0] else lines[0] + "\n" + JoinLines(lines[1..])
  }

  /** Joining the pieces of a split gives back the original string. */
  lemma {:induction false} JoinSplit(s: string)
    ensures JoinLines(SplitLines(s)) == s
    decreases |s|
  {
    var i := NextNewline(s, 0);
    if i < |s| {
      JoinSplit(s[i + 1..]);
      assert s == s[..i] + "\n" + s[i + 1..];
    }
  }

  /** Splitting a join of newline-free lines gives back those lines. */
  lemma {:induction false} SplitJoin(lines: seq<string>)
    requires |lines| >= 1
    requires forall k :: 0 <= k < |lines| ==> '\n' !in lines[k]
    ensures SplitLines(JoinLines(lines)) == lines
    decreases |lines|
  {
    var s := JoinLines(lines);
    var head := lines[0];
    assert forall k :: 0 <= k < |head| ==> s[k] == head[k];
    if |lines| == 1 {
      assert NextNewline(s, 0) == |s|;
    } else {
      var rest := JoinLines(lines[1..]);
      assert s == head + "\n" + rest;
      assert s[|head|] == '\n';
      assert NextNewline(s, 0) == |head|;
      assert s[..|head|] == head;
      assert s[|head| + 1..] == rest;
      SplitJoin(lines[1..]);
    }
  }

  // ---------------------------------------------------------------------
  // Decimal rendering (Python's `str(n)` for `n >= 0`).

  function DigitChar(d: nat): char
    requires d < 10
  {
    ('0' as int + d) as char
  }

  predicate IsDigit(c: char) {
    '0' <= c <= '9'
  }

  /** `str(n)`: the shortest decimal numeral of `n`. */
  function Decimal(n: nat): (r: string)
    ensures |r| >= 1
    ensures forall i :: 0 <= i < |r| ==> IsDigit(r[i])
    ensures |r| > 1 ==> r[0] != '0'
  {
    if n < 10 then [DigitChar(n)] else Decimal(n / 10) + [DigitChar(n % 10)]
  }

  /** The value of a string of decimal digits. */
  function DigitsValue(s: string): nat
    requires forall i :: 0 <= i < |s| ==> IsDigit(s[i])
  {
    if s == [] then 0
    else
      assert IsDigit(s[|s| - 1]);
      DigitsValue(s[..|s| - 1]) * 10 + (s[|s| - 1] as int - '0' as int)
  }

  /** Reading back a rendered numeral gives the number. */
  lemma {:induction false} DecimalRoundTrip(n: nat)
    ensures DigitsValue(Decimal(n)) == n
  {
    if n >= 10 {
      var r := Decimal(n);
      assert r[..|r| - 1] == Decimal(n / 10);
      DecimalRoundTrip(n / 10);
    }
  }

  /** Different numbers render differently. */
  lemma DecimalInjective(m: nat, n: nat)
    requires Decimal(m) == Decimal(n)
    ensures m == n
  {
    DecimalRoundTrip(m);
    DecimalRoundTrip(n);
  }
}

=== FILE: wrappers.dfy ===
/** The optional value used wherever the source reads a key that may be
    absent (`dict.get`, `'key' in d`) or an operation that may yield nothing. */
module Wrappers {

  datatype Option<+T> = None | Some(value: T) {

    /** The carried value, or `default` when there is none. */
    function GetOr(default: T): T {
      match this
      case Some(v) => v
      case None => default
    }
  }
}
